=== FILE: README.md ===
# chm2docset indexing core in Dafny

chm2docset turns a compiled HTML help file (`.chm`) into a Dash docset
bundle. After the help file has been unpacked into the bundle's
`Contents/Resources/Documents` folder, the tool builds the docset's
search index. It walks the unpacked pages and reads the first 64 KiB of
each `.htm`/`.html` file. It sniffs the page's `<meta … charset=…>`
declaration and decodes the page to UTF-8 on a best-effort basis. It takes
the leftmost `<title…>…</title>`, unescapes it and collapses its white
space. Each titled page is recorded as a row (title, "Guide", relative
path) in the SQLite table `searchIndex` inside one transaction. The bundle
itself is named after the source file.

This project models that core in seven modules:

- `Common` (`common.dfy`): an option type, bytes, ASCII lower-casing and
  case-insensitive literal matching.
- `Paths` (`paths.dfy`): the `path/filepath` functions the tool relies on
  (`Base`, `Ext`, `Join`, `Rel`, `ToSlash`) on a Unix host.
- `Charset` (`charset.dfy`): `decodeToUTF8` and `getEncoding`. The pattern
  `(?i)<meta\s+[^>]*charset\s*=\s*["']?([a-zA-Z0-9-]+)["']?` is modelled as
  a scanner. It is proved to find the match with the leftmost `<meta` and,
  inside that tag, the last `charset` (the greedy `[^>]*`). The scanner
  for one declaration is proved equal to a literal reading of the pattern's
  tail `charset\s*=\s*["']?NAME+`. The encoding
  indexes and the transcoder are parameters (a `Registry`).
- `Fields` (`fields.dfy`): `strings.Join(strings.Fields(t), " ")`, with
  `unicode.IsSpace`'s exact set of white space characters.
- `Title` (`title.dfy`): `extractTitle` once the file is open. The
  64 KiB read limit, decoding, the pattern `(?i)<title[^>]*>([^<]+)</title>`
  as a scanner proved equivalent to the pattern's leftmost match,
  unescaping and the collapse. Reading bytes as runes and
  `html.UnescapeString` are parameters (`Libs`).
- `Bundle` (`bundle.dfy`): the `Options` naming methods and the sanitiser
  `[^^a-zA-Z\d-_]`.
- `Index` (`index.dfy`): `indexDocs` and `CreateDatabase`.
  - The walk is a sequence of entries, and each entry is examined by the
    walk callback (`Examine`).
  - `Walk` is the specification: it processes the entries in order until
    one stops it.
  - The class `IndexStore` is the database file. Its committed rows and
    the rows seen by the open transaction are sets, because the table has a
    UNIQUE index and rows are added with INSERT OR IGNORE.
  - Its `IndexDocs` method loops over the entries and is proved to produce
    exactly `Walk`'s rows and error.
  - `CreateDatabase` is proved to commit exactly the walk's rows, or
    nothing when any step fails.

Faults the database can report (open, schema, begin, prepare, insert,
commit) are inputs of the model: `DbFaults`, and a flag on each file entry
for its insert. So are failures to read a page, which are entries without
a header.

The title pattern needs `</title>` right after the run without '<'. A
page such as `<title>A<b>B</b></title>` has no match at its first `<title>`.
The title then comes from a later `<title>` or is empty. The model follows
that code; it does not cut the capture at the first '<'.

## Model

| member | source | states |
|---|---|---|
| Charset.DeclAtShape | chm2docset.go:29 | a declaration found at a position is `charset` in any case, optional white space, '=', optional white space, an optional quote, and a non-empty run of name bytes that ends at the end of the input or at a byte outside the class |
| Charset.DeclAtIsMatch | chm2docset.go:29 | for a name class without white space or quotes, the scanner finds a declaration at a position exactly when the tail `charset\s*=\s*["']?NAME+` matches there, and with the same positions of '=', the name and its end |
| Charset.FindDeclFrom | chm2docset.go:191 | a match found starts at or after the search start; its `charset` follows the `<meta` and a blank and lies inside the input, and the declaration is the one the scanner finds there |
| Charset.LastDeclIn | chm2docset.go:29 | the declaration chosen inside a tag is the last one before the tag's first '>', as the greedy `[^>]*` makes it |
| Charset.CandidatesInTag | chm2docset.go:29 | inside one `<meta` tag, the places where the whole pattern matches are exactly the declarations between the opening blank and the tag's first '>' |
| Charset.FindDeclFromIsLeftmost | chm2docset.go:29 | the match found is a match of the pattern, no match starts at an earlier `<meta`, and no later `charset` in the same tag matches |
| Charset.FindDeclFromNone | chm2docset.go:191-194 | no declaration is found only when the pattern matches nowhere |
| Charset.Window | chm2docset.go:187-191 | the search covers the first min(len, 4096) bytes |
| Charset.Sniff | chm2docset.go:187-191 | a declaration found ends inside the first 4096 bytes and inside the input |
| Charset.CharsetName | chm2docset.go:191-195 | a declared name is non-empty and at most 4096 characters long |
| Charset.GetEncoding | chm2docset.go:211-217 | the MIME index's answer is the result when MIME knows the name, and the IANA index's answer otherwise; the lookup fails exactly when neither knows it |
| Charset.DecodeToUtf8 | chm2docset.go:186-209 | never fails. The bytes come back unchanged when there is no declaration, the name is utf-8 or utf8, or the lookup gives no supported encoding. When the transcoder succeeds for the declared, supported, non-UTF-8 encoding, the output is its output. The output differs from the input only when it is the transcoder's output; a failed transcode returns the input |
| Charset.DecodeToUtf8AsWritten | chm2docset.go:186-209 | the code as written panics exactly when the declared name is registered but has no implementation. The bytes come back unchanged when there is no declaration or the name is utf-8 or utf8. When the transcoder succeeds for the declared, supported, non-UTF-8 encoding, the output is its output; any change to the bytes comes from the transcoder |
| Charset.SniffSeesOnlyWindow | chm2docset.go:187-191 | bytes after the first 4096 never change which declaration is found |
| Charset.LateDeclarationIgnored | chm2docset.go:187-193 | when the first 4096 bytes declare nothing, the output equals the input, whatever follows |
| Charset.OpeningDeclarationFound | chm2docset.go:29 | a page that opens with `<meta`, a blank and a declaration, and has no other `c` before the tag's '>', yields that declaration |
| Charset.CharsetNameOfShortPage | chm2docset.go:187-195 | for a page within the window, the name is the captured bytes lower-cased |
| Charset.ShiftJisTruncatedAsWritten | chm2docset.go:29 | with the class as written, `<meta charset=Shift_JIS>` declares "shift" |
| Charset.ShiftJisNameKept | chm2docset.go:29 | with '_' in the class, the same page declares "shift_jis" |
| Charset.Utf7Declared | chm2docset.go:191-195 | `<meta charset=utf-7>` declares "utf-7" with either class |
| Charset.Utf7PanicsAsWritten | chm2docset.go:199-217 | as written, that page panics when "utf-7" is registered but unsupported |
| Charset.Utf7FallsBack | chm2docset.go:199-207 | corrected, that page comes back unchanged |
| Fields.CollapseSpace | chm2docset.go:235 | the collapse has the same fields as its input, in the same order |
| Fields.Fields | chm2docset.go:235 | every field is non-empty and free of white space |
| Fields.FieldsKeepOrder | chm2docset.go:235 | the fields, concatenated, are exactly the non-space characters of the input in order |
| Fields.FieldsEmpty | chm2docset.go:235 | there are no fields exactly when the input is all white space |
| Fields.FieldsOfJoin | chm2docset.go:235 | splitting the space-join of fields gives the same fields back |
| Fields.JoinIsCollapsed | chm2docset.go:235 | joining fields with ' ' gives no white space at the ends, only ' ' as white space, and no two adjacent |
| Fields.CollapseIsCollapsed | chm2docset.go:235 | the collapsed title has no leading or trailing white space, only single ' ' separators |
| Fields.CollapseKeepsFields | chm2docset.go:235 | the collapse keeps the fields unchanged and in order |
| Fields.CollapseIdempotent | chm2docset.go:235 | collapsing twice is collapsing once |
| Fields.CollapseEmpty | chm2docset.go:235 | the collapse is empty exactly when the input is all white space |
| Fields.CollapseKeepsText | chm2docset.go:235 | the collapse keeps every non-space character, in order |
| Title.TitleAtIsMatch | chm2docset.go:31 | the scanner finds a match at a position exactly when the pattern matches there, and then with the same capture |
| Title.FindTitle | chm2docset.go:232 | a match found starts inside the text and is the scanner's match there |
| Title.FindTitleIsLeftmost | chm2docset.go:31 | the match found is a match of the pattern with none starting earlier; none is found only when the pattern matches nowhere |
| Title.Header | chm2docset.go:227 | at most the first 64 KiB are read, and the whole file when it is shorter |
| Title.Content | chm2docset.go:231-232 | the pattern is matched in the decoded header: the transcoder's output, read as runes, when the header declares a supported non-UTF-8 charset that transcodes; otherwise (no declaration, UTF-8, no supported encoding, or the transcoder fails) the header's own bytes read as runes |
| Title.ExtractTitle | chm2docset.go:220-237 | the title is collapsed. It is "" without a match; otherwise it is the collapsed, unescaped capture of the leftmost match in the decoded header |
| Title.HeaderOnly | chm2docset.go:227 | bytes past the first 64 KiB never change the title |
| Title.NoMatchNoTitle | chm2docset.go:232-237 | when the decoded header holds no `<title…>X</title>` with X non-empty and free of '<', the title is "" |
| Title.TitleFromLeftmostMatch | chm2docset.go:232-235 | when the pattern matches, the title comes from its leftmost match |
| Paths.Base | chm2docset.go:92 | the last element is non-empty; it is "/" or holds no separator; it is "." for the empty path |
| Paths.Ext | chm2docset.go:98 | the extension is a suffix of the path and starts with '.' |
| Paths.ExtShape | chm2docset.go:284-287 | the extension holds no other '.' or separator; it is empty only when every '.' is followed by a separator |
| Paths.ExtAt | chm2docset.go:98 | the extension starts at the last '.' when no separator follows it |
| Paths.Join | chm2docset.go:106 | joining keeps the directory as a prefix and the name as a suffix, with at most one separator added |
| Paths.Rel | chm2docset.go:299-302 | a relative path found puts the base, a separator and itself back together into the target; it fails only for a target outside the base |
| Paths.ToSlash | chm2docset.go:303 | each host separator becomes '/', every other character stays |
| Bundle.Sanitize | chm2docset.go:30 | the result is no longer than the input and holds kept characters only |
| Bundle.SanitizeChar | chm2docset.go:30 | a kept character stays, any other is removed |
| Bundle.SanitizeAppend | chm2docset.go:30 | sanitising works character by character, in order |
| Bundle.SanitizeFixedPoint | chm2docset.go:30 | a string is unchanged exactly when it holds kept characters only |
| Bundle.SanitizeIdempotent | chm2docset.go:30 | re-sanitising is a no-op |
| Bundle.Options.Basename | chm2docset.go:96-99 | the base name followed by the extension is the file name |
| Bundle.BasenameCutsAtLastDot | chm2docset.go:96-99 | the base name is the file name cut at its last '.', or the whole file name when it has no '.' |
| Bundle.Options.DocsetPath | chm2docset.go:102-107 | the bundle path is non-empty and ends in 't' |
| Bundle.DocsetPathShape | chm2docset.go:102-107 | the bundle path ends in ".docset". It is the output directory when that already ends in ".docset", otherwise `filepath.Join` of the output directory and the base name with ".docset": that name alone for an empty directory, appended directly to a directory ending in '/', and after a '/' otherwise |
| Bundle.Options.ContentPath | chm2docset.go:110-112 | the documents folder is the bundle path followed by Contents/Resources/Documents |
| Bundle.Options.DatabasePath | chm2docset.go:115-117 | the database is the bundle path followed by Contents/Resources/docSet.dsidx |
| Bundle.Options.PlistPath | chm2docset.go:120-122 | the property list is the bundle path followed by Contents/Info.plist |
| Bundle.BundleIdentifierShape | chm2docset.go:125-127 | the identifier is "io.ngs.documentation." followed by kept characters only, and re-sanitising that tail is a no-op |
| Bundle.FooBarExample | chm2docset.go:96-127 | `docs/Foo Bar.chm` into `out` gives base name "Foo Bar", bundle `out/Foo Bar.docset` and identifier `io.ngs.documentation.FooBar` |
| Index.IsPage | chm2docset.go:284-287 | a file is a page exactly when its extension, lower-cased, is ".htm" or ".html" |
| Index.Examine | chm2docset.go:276-310 | the callback aborts only with a walk error or a Rel error, and every row it asks for is for a `.htm`/`.html` file, of type "Guide", with a non-empty title |
| Index.ExamineAborts | chm2docset.go:276-302 | an entry aborts the walk with a walk error exactly for an error entry, and with a Rel error exactly for a titled page outside the base |
| Index.ExamineUnderBase | chm2docset.go:299-302 | for a file under the base, the relative path is the part after the base and a separator, so a walk of the base never aborts with a Rel error |
| Index.ExamineInserts | chm2docset.go:280-305 | directories, non-pages, unreadable files and untitled pages are skipped. A row is inserted exactly for a `.htm`/`.html` page with a non-empty title and a relative path, as (title, "Guide", path relative to the base) |
| Index.WalkInsertsOnlyRequested | chm2docset.go:276-310 | `Walk`, the walk over the entries with the callback, inserts only rows that its entries ask for, even when it fails |
| Index.Apply | chm2docset.go:276-310 | one entry fails the walk exactly when it stops it, and never removes a row |
| Index.WalkSucceeds | chm2docset.go:276-310 | the walk succeeds exactly when no entry stops it |
| Index.WalkRows | chm2docset.go:269-310 | a successful walk inserts exactly the rows the entries ask for, as a set |
| Index.RequestedRowsPermutation | chm2docset.go:54 | the rows asked for do not depend on the order of the entries |
| Index.WalkOrderIndependent | chm2docset.go:54 | a successful walk gives the same outcome for the entries in any order |
| Index.WalkStopsAtFailure | chm2docset.go:276-306 | once an entry has stopped the walk, later entries change nothing |
| Index.WalkIgnoresSkipped | chm2docset.go:280-297 | a skipped entry can be removed from the walk without changing its outcome |
| Index.CreateDatabaseError | chm2docset.go:241-264 | no error exactly when no database step fails and the walk succeeds; after a successful begin and prepare, the walk's error is the one reported |
| Index.IndexStore.constructor | chm2docset.go:242 | a database file left by an earlier run, holding stale rows |
| Index.IndexStore.Remove | chm2docset.go:242 | after the removal, there is no table and no row |
| Index.IndexStore.CreateSchema | chm2docset.go:250-252 | creating the table fails when asked to or when it already exists; afterwards the table exists exactly when it existed before or the statement did not fail; no row changes |
| Index.IndexStore.Begin | chm2docset.go:254-257 | a transaction is open exactly when beginning does not fail; nothing else changes |
| Index.IndexStore.InsertOrIgnore | chm2docset.go:305-307 | the row is added to the transaction's rows unless the statement fails; a row already present changes nothing |
| Index.IndexStore.Commit | chm2docset.go:264 | the transaction ends; its rows become the committed rows exactly when the commit succeeds |
| Index.IndexStore.Rollback | chm2docset.go:258 | the open transaction, if any, is discarded; the committed rows stay |
| Index.IndexStore.IndexDocs | chm2docset.go:268-311 | a failed prepare adds nothing. Otherwise the error is the walk's error and the transaction gains exactly the walk's rows; committed rows are unchanged |
| Index.IndexStore.CreateDatabase | chm2docset.go:241-265 | success exactly when no step fails and the walk succeeds. The committed rows are then exactly the walk's rows, whatever the old file held; after any failure, no rows are committed |

## Left out

- `ExtractSource`, `Clean`, `CreateDirectory`, `WritePlist` and the
  plist template, `parseFlags`, `usage`, `run` and `main`: subprocesses,
  file system writes and command-line handling.
- Opening and reading a page: a read failure is an entry without a header,
  and the logged warning is not modelled.
- SQLite: the table is a set of rows with commit and rollback. Each
  statement's failure is an input flag. `db.Close` and `stmt.Close` are not
  modelled. The error values are constructors, not wrapped messages.
- Bundle.Options.DocsetPath: its own contract states only that the path is
  non-empty and ends in 't'; the full shape is `DocsetPathShape`.
- Index.IndexStore.Remove: always succeeds. The source ignores the error
  of `os.Remove`, and a file that could not be removed is not modelled.
- The encoding indexes, the transcoder (including its read errors),
  `html.UnescapeString` and the reading of bytes as runes are abstract
  functions. The regular expressions' treatment of invalid UTF-8 is folded
  into the last of these.
- Case-insensitive matching compares ASCII letters only. Under `(?i)` Go
  also folds U+017F (long s) with 's' and U+212A (Kelvin sign) with 'k'.
  `<meta`, `<title` and `</title>` hold neither letter, so those matches
  are exact. `charset` holds an 's', so Go also accepts it spelled with
  U+017F, and the name class `[a-zA-Z0-9-]` also admits U+017F and U+212A.
  Neither is modelled.
- Paths.Join: does not apply `filepath.Clean`, so a result differs
  lexically from Go's for output directories such as `./` (`./x.docset`
  instead of `x.docset`).
- Title.ExtractTitle: decodes with the corrected `DecodeToUtf8`, not the
  code as written. Two inputs differ. (a) A page declaring `Shift_JIS`
  with a registry that knows "shift_jis": the code looks up "shift",
  finds nothing and matches the raw bytes; the model matches the decoded
  text. (b) A page declaring a registered but unsupported name such as
  `utf-7`: the code panics in `decodeToUTF8`; the model reads the page
  undecoded.
- Index.IndexStore.CreateDatabase: uses the corrected decoder through
  `ExtractTitle`. For input (b) the program panics during the walk, so no
  row is committed and no error is returned; the model commits the page's
  row. For input (a) the committed title can differ.
- Index.ExamineAborts: entries are not constrained to lie under the base.
  For a page outside it the model aborts with RelFailed, where Go's `Rel`
  would return a path starting with `../`. A real walk of the base never
  yields such an entry (`ExamineUnderBase`).
- Paths.Rel: is prefix stripping, enough for paths found by walking the
  base; Go's handling of `..` and unclean paths is not modelled.
- Paths: the host is Unix (separator '/'), so `filepath.ToSlash` changes
  nothing.
- The order in which `filepath.WalkDir` visits entries (lexical) is not
  modelled; any order is allowed.
- `Bundle.Options.SourceFilename` and `Bundle.Options.BundleIdentifier`
  carry no contract of their own; `Paths.Base`, `BasenameCutsAtLastDot` and
  `BundleIdentifierShape` state their properties.

## Findings

| source | as written | input that shows it | evidently intended | confidence | as-written member | corrected member |
|---|---|---|---|---|---|---|
| chm2docset.go:29 | the name class `[a-zA-Z0-9-]` has no '_', so the capture stops at the first '_' | `<meta charset=Shift_JIS>` is looked up as "shift", which no index knows, so the page is not decoded | capture the whole registered name "shift_jis" | medium, not executed | Charset.ShiftJisTruncatedAsWritten | Charset.ShiftJisNameKept |
| chm2docset.go:199-217 | `ianaindex` returns a nil encoding with a nil error for a registered but unsupported name; `enc.NewDecoder()` is then called on nil | `<meta charset=utf-7>` with "utf-7" registered but unsupported: the decoder call panics | fall back to the input unchanged, as for the other failures | medium, not executed | Charset.Utf7PanicsAsWritten | Charset.Utf7FallsBack |

=== FILE: bundle.dfy ===
/** Naming of the docset bundle: the `Options` methods `SourceFilename`,
    `Basename`, `DocsetPath`, `ContentPath`, `DatabasePath`, `PlistPath` and
    `BundleIdentifier`, and the sanitiser `[^^a-zA-Z\d-_]` that the bundle
    identifier is built with. */
module Bundle {
  import opened Common
  import Paths

  const IdentifierPrefix: string := "io.ngs.documentation."
  const DocsetSuffix: string := ".docset"

  /** A character the sanitiser keeps: '^', an ASCII letter or digit, '-' or
      '_'. In `[^^a-zA-Z\d-_]` the second '^' is a literal and `\d-_` is a
      class escape, '-' and '_', not a range. */
  predicate IsBundleChar(c: char)
  {
    c == '^' || ('a' <= c <= 'z') || ('A' <= c <= 'Z') || ('0' <= c <= '9') || c == '-' || c == '_'
  }

  predicate AllBundleChars(s: string)
  {
    forall k :: 0 <= k < |s| ==> IsBundleChar(s[k])
  }

  /** `safeBundleRE.ReplaceAllString(s, "")`: every character outside the
      kept set is removed. */
  function Sanitize(s: string): (r: string)
    ensures |r| <= |s|
    ensures AllBundleChars(r)
  {
    if s == [] then []
    else (if IsBundleChar(s[0]) then [s[0]] else []) + Sanitize(s[1..])
  }

  lemma SuffixEnd(s: string, suffix: string)
    requires suffix != [] && HasSuffix(s, suffix)
    ensures s != [] && s[|s| - 1] == suffix[|suffix| - 1]
  {
    assert s[|s| - 1] == s[|s| - |suffix|..][|suffix| - 1];
  }

  /** `filepath.Join(d, a, b)` when `d` and `a` do not end in a separator. */
  lemma JoinTwo(d: string, a: string, b: string)
    requires d != [] && d[|d| - 1] != Paths.Separator
    requires a != [] && a[|a| - 1] != Paths.Separator
    ensures Paths.Join(Paths.Join(d, a), b) == d + "/" + a + "/" + b
  {
    Paths.JoinAddsSeparator(d, a);
    var da := d + "/" + a;
    assert da[|da| - 1] == a[|a| - 1];
    Paths.JoinAddsSeparator(da, b);
  }

  /** `filepath.Join(d, a, b, c)` when `d`, `a` and `b` do not end in a
      separator. */
  lemma JoinThree(d: string, a: string, b: string, c: string)
    requires d != [] && d[|d| - 1] != Paths.Separator
    requires a != [] && a[|a| - 1] != Paths.Separator
    requires b != [] && b[|b| - 1] != Paths.Separator
    ensures Paths.Join(Paths.Join(Paths.Join(d, a), b), c)
      == d + "/" + a + "/" + b + "/" + c
  {
    JoinTwo(d, a, b);
    var dab := d + "/" + a + "/" + b;
    assert dab[|dab| - 1] == b[|b| - 1];
    Paths.JoinAddsSeparator(dab, c);
  }

  /** The command-line options: output directory, platform family, and the
      path of the `.chm` file. */
  datatype Options = Options(outdir: string, platform: string, sourcePath: string)
  {
    function SourceFilename(): (r: string)
    {
      Paths.Base(sourcePath)
    }

    /** The file name without its extension (`strings.TrimSuffix(fn,
        filepath.Ext(fn))`; the extension is always a suffix of the name). */
    function Basename(): (r: string)
      ensures r + Paths.Ext(SourceFilename()) == SourceFilename()
    {
      var fn := SourceFilename();
      Paths.ExtSplits(fn);
      fn[..|fn| - |Paths.Ext(fn)|]
    }

    /** `Outdir` itself when it already names a bundle, otherwise the bundle
        named after the source inside `Outdir`. */
    function DocsetPath(): (r: string)
      ensures r != [] && r[|r| - 1] == 't'
    {
      if HasSuffix(outdir, DocsetSuffix) then
        SuffixEnd(outdir, DocsetSuffix);
        outdir
      else
        var name := Basename() + DocsetSuffix;
        SuffixEnd(name, DocsetSuffix);
        Paths.Join(outdir, name)
    }

    /** The resources folder `Contents/Resources/Documents` of the bundle. */
    function ContentPath(): (r: string)
      ensures r == DocsetPath() + "/" + "Contents" + "/" + "Resources" + "/" + "Documents"
    {
      var d := DocsetPath();
      var contents := Paths.Join(d, "Contents");
      var resources := Paths.Join(contents, "Resources");
      JoinThree(d, "Contents", "Resources", "Documents");
      Paths.Join(resources, "Documents")
    }

    /** The index database `Contents/Resources/docSet.dsidx` of the bundle. */
    function DatabasePath(): (r: string)
      ensures r == DocsetPath() + "/" + "Contents" + "/" + "Resources" + "/" + "docSet.dsidx"
    {
      var d := DocsetPath();
      var contents := Paths.Join(d, "Contents");
      var resources := Paths.Join(contents, "Resources");
      JoinThree(d, "Contents", "Resources", "docSet.dsidx");
      Paths.Join(resources, "docSet.dsidx")
    }

    /** The property list `Contents/Info.plist` of the bundle. */
    function PlistPath(): (r: string)
      ensures r == DocsetPath() + "/" + "Contents" + "/" + "Info.plist"
    {
      var d := DocsetPath();
      var contents := Paths.Join(d, "Contents");
      JoinTwo(d, "Contents", "Info.plist");
      Paths.Join(contents, "Info.plist")
    }

    function BundleIdentifier(): (r: string)
    {
      IdentifierPrefix + Sanitize(Basename())
    }
  }

  /** The bundle path: `Outdir` itself when it already ends in ".docset",
      otherwise `Outdir`, at most one separator, and the base name with
      ".docset" appended. Either way it ends in ".docset". */
  lemma DocsetPathShape(o: Options)
    ensures HasSuffix(o.DocsetPath(), DocsetSuffix)
    ensures HasSuffix(o.outdir, DocsetSuffix) ==> o.DocsetPath() == o.outdir
    ensures !HasSuffix(o.outdir, DocsetSuffix) ==>
      var r := o.DocsetPath();
      var name := o.Basename() + DocsetSuffix;
      && |o.outdir| + |name| <= |r| <= |o.outdir| + |name| + 1
      && r[..|o.outdir|] == o.outdir
      && r[|r| - |name|..] == name
    ensures !HasSuffix(o.outdir, DocsetSuffix) ==>
      o.DocsetPath() == Paths.Join(o.outdir, o.Basename() + DocsetSuffix)
    ensures !HasSuffix(o.outdir, DocsetSuffix) && o.outdir == [] ==>
      o.DocsetPath() == o.Basename() + DocsetSuffix
    ensures !HasSuffix(o.outdir, DocsetSuffix) && o.outdir != [] && o.outdir[|o.outdir| - 1] == '/' ==>
      o.DocsetPath() == o.outdir + o.Basename() + DocsetSuffix
    ensures !HasSuffix(o.outdir, DocsetSuffix) && o.outdir != [] && o.outdir[|o.outdir| - 1] != '/' ==>
      o.DocsetPath() == o.outdir + "/" + o.Basename() + DocsetSuffix
  {
    if !HasSuffix(o.outdir, DocsetSuffix) {
      DocsetPathJoined(o);
      JoinedName(o.outdir, o.Basename());
    }
  }

  lemma DocsetPathJoined(o: Options)
    requires !HasSuffix(o.outdir, DocsetSuffix)
    ensures o.DocsetPath() == Paths.Join(o.outdir, o.Basename() + DocsetSuffix)
  {
  }

  /** Where `Paths.Join` puts its one separator between a directory and a
      bundle name. */
  lemma JoinedName(dir: string, base: string)
    ensures HasSuffix(Paths.Join(dir, base + DocsetSuffix), DocsetSuffix)
    ensures dir == [] ==> Paths.Join(dir, base + DocsetSuffix) == base + DocsetSuffix
    ensures dir != [] && dir[|dir| - 1] == '/' ==> Paths.Join(dir, base + DocsetSuffix) == dir + base + DocsetSuffix
    ensures dir != [] && dir[|dir| - 1] != '/' ==> Paths.Join(dir, base + DocsetSuffix) == dir + "/" + base + DocsetSuffix
  {
    var name := base + DocsetSuffix;
    var r := Paths.Join(dir, name);
    assert r[|r| - |name|..] == name;
    assert r[|r| - |DocsetSuffix|..] == name[|name| - |DocsetSuffix|..];
    if dir != [] && dir[|dir| - 1] != '/' {
      Paths.JoinAddsSeparator(dir, name);
      assert dir + [Paths.Separator] + name == dir + "/" + base + DocsetSuffix;
    } else if dir != [] {
      assert dir + name == dir + base + DocsetSuffix;
    }
  }

  /** The sanitiser treats each character on its own: it keeps a kept
      character and drops any other. */
  lemma SanitizeChar(c: char)
    ensures Sanitize([c]) == if IsBundleChar(c) then [c] else []
  {
    assert [c][1..] == [];
  }

  /** ... and in order: sanitising a concatenation concatenates the parts. */
  lemma {:induction false} SanitizeAppend(a: string, b: string)
    ensures Sanitize(a + b) == Sanitize(a) + Sanitize(b)
    decreases |a|
  {
    if a == [] {
      assert a + b == b;
    } else {
      var head := if IsBundleChar(a[0]) then [a[0]] else [];
      assert (a + b)[0] == a[0] && (a + b)[1..] == a[1..] + b;
      assert Sanitize(a + b) == head + Sanitize(a[1..] + b);
      SanitizeAppend(a[1..], b);
      assert Sanitize(a) == head + Sanitize(a[1..]);
    }
  }

  /** A string is left unchanged exactly when it holds kept characters only. */
  lemma {:induction false} SanitizeFixedPoint(s: string)
    ensures Sanitize(s) == s <==> AllBundleChars(s)
    decreases |s|
  {
    if s != [] {
      SanitizeFixedPoint(s[1..]);
      if IsBundleChar(s[0]) {
        assert AllBundleChars(s) <==> AllBundleChars(s[1..]) by {
          if AllBundleChars(s[1..]) {
            forall k | 0 <= k < |s| ensures IsBundleChar(s[k]) {
              if k > 0 { assert s[k] == s[1..][k - 1]; }
            }
          }
        }
      } else {
        assert |Sanitize(s)| < |s|;
      }
    }
  }

  /** Sanitising twice is sanitising once. */
  lemma SanitizeIdempotent(s: string)
    ensures Sanitize(Sanitize(s)) == Sanitize(s)
  {
    SanitizeFixedPoint(Sanitize(s));
  }

  /** The identifier is the fixed prefix followed by kept characters only,
      and re-sanitising its tail changes nothing. */
  lemma BundleIdentifierShape(o: Options)
    ensures |o.BundleIdentifier()| >= |IdentifierPrefix|
    ensures o.BundleIdentifier()[..|IdentifierPrefix|] == IdentifierPrefix
    ensures AllBundleChars(o.BundleIdentifier()[|IdentifierPrefix|..])
    ensures Sanitize(o.BundleIdentifier()[|IdentifierPrefix|..]) == o.BundleIdentifier()[|IdentifierPrefix|..]
  {
    var tail := Sanitize(o.Basename());
    assert o.BundleIdentifier()[|IdentifierPrefix|..] == tail;
    SanitizeIdempotent(o.Basename());
  }

  /** The last '.' of a name without separators. */
  predicate LastDotAt(fn: string, k: nat)
  {
    k < |fn| && fn[k] == '.' && forall j :: k < j < |fn| ==> fn[j] != '.'
  }

  /** The base name is the file name cut at its last '.', or the whole file
      name when it has no '.'. */
  lemma BasenameCutsAtLastDot(o: Options)
    ensures '.' !in o.SourceFilename() ==> o.Basename() == o.SourceFilename()
    ensures forall k: nat :: LastDotAt(o.SourceFilename(), k) ==> o.Basename() == o.SourceFilename()[..k]
  {
    var fn := o.SourceFilename();
    var e := Paths.Ext(fn);
    var n := |fn| - |e|;
    assert o.Basename() == fn[..n];
    Paths.ExtShape(fn);
    if e == [] {
      assert fn[..n] == fn;
      forall k: nat | LastDotAt(fn, k) ensures false { }
    } else {
      assert fn[n] == e[0] == '.';
      forall k: nat | LastDotAt(fn, k) ensures k == n { }
    }
  }

  /** A source `docs/Foo Bar.chm` converted into `out`: the bundle is
      `out/Foo Bar.docset` and its identifier drops the blank. */
  lemma FooBarExample(o: Options)
    requires o == Options("out", "unknown", "docs/Foo Bar.chm")
    ensures o.Basename() == "Foo Bar"
    ensures o.DocsetPath() == "out/Foo Bar.docset"
    ensures o.BundleIdentifier() == IdentifierPrefix + "FooBar"
  {
    FooBarBasename(o);
    FooBarName(o.Basename());
    FooBarSanitized(o.Basename());
  }

  lemma FooBarBasename(o: Options)
    requires o.sourcePath == "docs/Foo Bar.chm"
    ensures o.Basename() == "Foo Bar"
  {
    var fn := o.SourceFilename();
    assert fn == "Foo Bar.chm" by { FooBarFilename(o.sourcePath); }
    FooBarExt(fn);
    BasenameIs(o, fn, 7);
    assert fn[..7] == "Foo Bar";
  }

  lemma BasenameIs(o: Options, fn: string, n: nat)
    requires o.SourceFilename() == fn && n <= |fn| && |Paths.Ext(fn)| == |fn| - n
    ensures o.Basename() == fn[..n]
  {
  }

  lemma FooBarFilename(src: string)
    requires src == "docs/Foo Bar.chm"
    ensures Paths.Base(src) == "Foo Bar.chm"
  {
    Paths.LastElementAfter(src, 4);
    assert src[5..] == "Foo Bar.chm";
  }

  lemma FooBarExt(fn: string)
    requires fn == "Foo Bar.chm"
    ensures Paths.Ext(fn) == ".chm" && |fn| - |Paths.Ext(fn)| == 7
  {
    Paths.ExtAt(fn, 7);
    assert fn[7..] == ".chm";
  }

  lemma FooBarName(b: string)
    requires b == "Foo Bar"
    ensures !HasSuffix("out", DocsetSuffix)
    ensures Paths.Join("out", b + DocsetSuffix) == "out/Foo Bar.docset"
  {
  }

  lemma FooBarSanitized(b: string)
    requires b == "Foo Bar"
    ensures Sanitize(b) == "FooBar"
  {
    var foo, bar := b[..3], b[4..];
    assert b == foo + [' '] + bar;
    SanitizeAppend(foo + [' '], bar);
    SanitizeAppend(foo, [' ']);
    SanitizeChar(' ');
    assert AllBundleChars(foo) && AllBundleChars(bar);
    SanitizeFixedPoint(foo);
    SanitizeFixedPoint(bar);
    assert Sanitize(b) == foo + bar;
  }
}

=== FILE: charset.dfy ===
/** The encoding detector: `decodeToUTF8` and `getEncoding`.

    The bytes of a page are searched, within the first 4096 of them, for the
    pattern `(?i)<meta\s+[^>]*charset\s*=\s*["']?([a-zA-Z0-9-]+)["']?`. The
    pattern is modelled by a hand-written scanner: the leftmost `<meta` that
    starts a match wins, and because `[^>]*` is greedy the declaration chosen
    inside that tag is the LAST `charset=` before the tag's first '>'. The
    character registries and the transcoder are foreign code and are given as
    a `Registry` value. */
module Charset {
  import opened Common

  /** Only this many leading bytes are searched for a declaration. */
  const SearchLimit := 4096

  datatype Encoding = Encoding(name: string)

  /** What a registry says about a name: unknown, registered but without an
      implementation (the registry then answers a nil encoding and no error),
      or registered with a usable encoding. */
  datatype Lookup = NotRegistered | Unsupported | Supported(encoding: Encoding)

  /** The MIME and IANA name indexes and the transcoder to UTF-8. */
  datatype Registry = Registry(
    mime: string -> Lookup,
    iana: string -> Lookup,
    transcode: (Encoding, seq<byte>) -> Option<seq<byte>>)

  /** `\s` of Go's regexp syntax: tab, newline, form feed, carriage return, space. */
  predicate IsReSpace(b: byte)
  {
    b == 9 || b == 10 || b == 12 || b == 13 || b == 32
  }

  predicate IsQuote(b: byte)
  {
    b == 34 || b == 39
  }

  predicate IsAsciiAlnum(b: byte)
  {
    48 <= b <= 57 || 65 <= b <= 90 || 97 <= b <= 122
  }

  /** The capture class `[a-zA-Z0-9-]` as the source writes it. */
  predicate IsNameByteAsWritten(b: byte)
  {
    IsAsciiAlnum(b) || b == 45
  }

  /** The capture class with '_' added, so that registered names such as
      Shift_JIS are captured whole. */
  predicate IsNameByte(b: byte)
  {
    IsNameByteAsWritten(b) || b == 95
  }

  predicate AllSpace(s: seq<byte>, i: nat, j: nat)
    requires i <= j <= |s|
  {
    forall k :: i <= k < j ==> IsReSpace(s[k])
  }

  predicate NoGt(s: seq<byte>, i: nat, j: nat)
    requires i <= j <= |s|
  {
    forall k :: i <= k < j ==> s[k] != 62
  }

  /** The end of the run of `\s` that starts at `i` (greedy `\s*`). */
  function SkipSpace(s: seq<byte>, i: nat): (j: nat)
    requires i <= |s|
    ensures i <= j <= |s|
    ensures j < |s| ==> !IsReSpace(s[j])
    decreases |s| - i
  {
    if i < |s| && IsReSpace(s[i]) then SkipSpace(s, i + 1) else i
  }

  lemma {:induction false} SkipSpaceSkipsSpace(s: seq<byte>, i: nat)
    requires i <= |s|
    ensures AllSpace(s, i, SkipSpace(s, i))
    decreases |s| - i
  {
    if i < |s| && IsReSpace(s[i]) { SkipSpaceSkipsSpace(s, i + 1); }
  }

  /** The end of the run of name bytes that starts at `i`. */
  function NameEnd(s: seq<byte>, i: nat, nameByte: byte -> bool): (j: nat)
    requires i <= |s|
    ensures i <= j <= |s|
    ensures j < |s| ==> !nameByte(s[j])
    decreases |s| - i
  {
    if i < |s| && nameByte(s[i]) then NameEnd(s, i + 1, nameByte) else i
  }

  lemma {:induction false} NameEndSpansName(s: seq<byte>, i: nat, nameByte: byte -> bool)
    requires i <= |s|
    ensures forall k :: i <= k < NameEnd(s, i, nameByte) ==> nameByte(s[k])
    decreases |s| - i
  {
    if i < |s| && nameByte(s[i]) { NameEndSpansName(s, i + 1, nameByte); }
  }

  /** NameEnd stops at the first byte outside the class. */
  lemma {:induction false} NameEndIs(s: seq<byte>, i: nat, j: nat, nameByte: byte -> bool)
    requires i <= j <= |s| && (j < |s| ==> !nameByte(s[j]))
    requires forall k :: i <= k < j ==> nameByte(s[k])
    ensures NameEnd(s, i, nameByte) == j
    decreases j - i
  {
    if i < j { NameEndIs(s, i + 1, j, nameByte); }
  }

  /** The first '>' at or after `i`, or the end of the input. */
  function GtFrom(s: seq<byte>, i: nat): (j: nat)
    requires i <= |s|
    ensures i <= j <= |s|
    ensures j < |s| ==> s[j] == 62
    decreases |s| - i
  {
    if i < |s| && s[i] != 62 then GtFrom(s, i + 1) else i
  }

  lemma {:induction false} GtFromIsFirst(s: seq<byte>, i: nat)
    requires i <= |s|
    ensures NoGt(s, i, GtFrom(s, i))
    decreases |s| - i
  {
    if i < |s| && s[i] != 62 { GtFromIsFirst(s, i + 1); }
  }

  /** GtFrom is the first '>' at or after `i`. */
  lemma GtFromIs(s: seq<byte>, i: nat, j: nat)
    requires i <= j < |s| && s[j] == 62 && NoGt(s, i, j)
    ensures GtFrom(s, i) == j
  {
    GtFromIsFirst(s, i);
  }

  /** Positions in one declaration: the '=' sign, and the first byte and the
      end of the captured name. */
  datatype Decl = Decl(eq: nat, name: nat, end: nat)

  /** The tail `charset\s*=\s*["']?(NAME+)["']?` of the pattern, tried at `p`. */
  function DeclAt(s: seq<byte>, p: nat, nameByte: byte -> bool): (r: Option<Decl>)
    requires p <= |s|
  {
    if !FoldBytesAt(s, p, "charset") then None else DeclTail(s, p + 7, nameByte)
  }

  /** The part `\s*=\s*["']?(NAME+)` after `charset`, from `i`. */
  function DeclTail(s: seq<byte>, i: nat, nameByte: byte -> bool): (r: Option<Decl>)
    requires i <= |s|
  {
    var e := SkipSpace(s, i);
    if e == |s| || s[e] != 61 then None
    else
      var q := SkipSpace(s, e + 1);
      var a := if q < |s| && IsQuote(s[q]) then q + 1 else q;
      var b := NameEnd(s, a, nameByte);
      if a < b then Some(Decl(e, a, b)) else None
  }

  /** The tail of the pattern read literally, with `d` its positions:
      `charset` in any case, `\s*` up to '=', `\s*`, an optional quote, then
      a non-empty name run that ends at the end of the input or at a byte
      outside the class. */
  ghost predicate DeclMatchAt(s: seq<byte>, p: nat, nameByte: byte -> bool, d: Decl)
  {
    && FoldBytesAt(s, p, "charset")
    && p + 7 <= d.eq < d.name < d.end <= |s|
    && s[d.eq] == 61
    && AllSpace(s, p + 7, d.eq)
    && (|| AllSpace(s, d.eq + 1, d.name)
        || (d.eq + 1 < d.name && IsQuote(s[d.name - 1]) && AllSpace(s, d.eq + 1, d.name - 1)))
    && (forall k :: d.name <= k < d.end ==> nameByte(s[k]))
    && (d.end < |s| ==> !nameByte(s[d.end]))
  }

  /** A name class that holds no `\s` byte and no quote, as both classes of
      the pattern do; the match of the tail is then unique. */
  ghost predicate BlankFree(nameByte: byte -> bool)
  {
    forall b: byte :: nameByte(b) ==> !IsReSpace(b) && !IsQuote(b)
  }

  lemma NameClassesBlankFree()
    ensures BlankFree(IsNameByte) && BlankFree(IsNameByteAsWritten)
  {
  }

  /** A declaration found by DeclAt is a literal match of the tail. */
  lemma DeclAtShape(s: seq<byte>, p: nat, nameByte: byte -> bool)
    requires p <= |s| && DeclAt(s, p, nameByte).Some?
    ensures DeclMatchAt(s, p, nameByte, DeclAt(s, p, nameByte).value)
  {
    var e := SkipSpace(s, p + 7);
    SkipSpaceSkipsSpace(s, p + 7);
    SkipSpaceSkipsSpace(s, e + 1);
    var q := SkipSpace(s, e + 1);
    var a := if q < |s| && IsQuote(s[q]) then q + 1 else q;
    NameEndSpansName(s, a, nameByte);
  }

  /** SkipSpace stops at the first byte that is not `\s`. */
  lemma {:induction false} SkipSpaceIs(s: seq<byte>, i: nat, j: nat)
    requires i <= j < |s| && AllSpace(s, i, j) && !IsReSpace(s[j])
    ensures SkipSpace(s, i) == j
    decreases j - i
  {
    if i < j { SkipSpaceIs(s, i + 1, j); }
  }

  /** Every literal match of the tail is the one DeclAt finds. */
  lemma DeclMatchFound(s: seq<byte>, p: nat, nameByte: byte -> bool, d: Decl)
    requires p <= |s| && BlankFree(nameByte) && DeclMatchAt(s, p, nameByte, d)
    ensures DeclAt(s, p, nameByte) == Some(d)
  {
    assert nameByte(s[d.name]);
    DeclTailFound(s, p + 7, nameByte, d);
  }

  /** The part after `charset`: white space, '=', white space, an optional
      quote and a maximal name run starting with a byte that is neither
      white space nor a quote. */
  lemma DeclTailFound(s: seq<byte>, i: nat, nameByte: byte -> bool, d: Decl)
    requires i <= d.eq < d.name < d.end <= |s| && s[d.eq] == 61 && AllSpace(s, i, d.eq)
    requires || AllSpace(s, d.eq + 1, d.name)
             || (d.eq + 1 < d.name && IsQuote(s[d.name - 1]) && AllSpace(s, d.eq + 1, d.name - 1))
    requires !IsReSpace(s[d.name]) && !IsQuote(s[d.name])
    requires forall k :: d.name <= k < d.end ==> nameByte(s[k])
    requires d.end < |s| ==> !nameByte(s[d.end])
    ensures DeclTail(s, i, nameByte) == Some(d)
  {
    SkipSpaceIs(s, i, d.eq);
    var q := if AllSpace(s, d.eq + 1, d.name) then d.name else d.name - 1;
    SkipSpaceIs(s, d.eq + 1, q);
    NameEndIs(s, d.name, d.end, nameByte);
  }

  /** DeclAt is exactly the literal reading of the tail. */
  lemma DeclAtIsMatch(s: seq<byte>, p: nat, nameByte: byte -> bool, d: Decl)
    requires p <= |s| && BlankFree(nameByte)
    ensures DeclAt(s, p, nameByte) == Some(d) <==> DeclMatchAt(s, p, nameByte, d)
  {
    if DeclAt(s, p, nameByte) == Some(d) { DeclAtShape(s, p, nameByte); }
    if DeclMatchAt(s, p, nameByte, d) { DeclMatchFound(s, p, nameByte, d); }
  }

  /** `<meta` followed by at least one `\s`, at `i`. */
  predicate MetaOpenAt(s: seq<byte>, i: nat)
  {
    FoldBytesAt(s, i, "<meta") && i + 5 < |s| && IsReSpace(s[i + 5])
  }

  /** The whole pattern matches with its `<meta` at `i` and its `charset` at `p`. */
  ghost predicate Candidate(s: seq<byte>, i: nat, p: nat, nameByte: byte -> bool)
  {
    MetaOpenAt(s, i) && i + 6 <= p <= |s| && NoGt(s, i + 5, p) && DeclAt(s, p, nameByte).Some?
  }

  /** The last position in `[lo, hi)` where a declaration matches. */
  function LastDeclIn(s: seq<byte>, lo: nat, hi: nat, nameByte: byte -> bool): (r: Option<(nat, Decl)>)
    requires lo <= hi <= |s|
    ensures r.Some? ==> lo <= r.value.0 < hi && DeclAt(s, r.value.0, nameByte) == Some(r.value.1)
    ensures r.Some? ==> forall p :: r.value.0 < p < hi ==> DeclAt(s, p, nameByte).None?
    ensures r.None? ==> forall p :: lo <= p < hi ==> DeclAt(s, p, nameByte).None?
    decreases hi - lo
  {
    if hi == lo then None
    else
      var here := DeclAt(s, hi - 1, nameByte);
      if here.Some? then Some((hi - 1, here.value))
      else
        LastDeclIn(s, lo, hi - 1, nameByte)
  }

  /** Where a match was found: the `<meta`, the `charset` and the declaration. */
  datatype Declaration = Declaration(start: nat, at: nat, decl: Decl)

  /** The leftmost match at or after `i`, with the last declaration of its
      tag (FindDeclFromIsLeftmost states this in terms of Candidate). */
  function FindDeclFrom(s: seq<byte>, i: nat, nameByte: byte -> bool): (r: Option<Declaration>)
    requires i <= |s|
    ensures r.Some? ==> i <= r.value.start && r.value.start + 6 <= r.value.at < |s|
    ensures r.Some? ==> DeclAt(s, r.value.at, nameByte) == Some(r.value.decl)
    decreases |s| - i
  {
    if i == |s| then None
    else if MetaOpenAt(s, i) then
      match LastDeclIn(s, i + 6, GtFrom(s, i + 5), nameByte)
      case Some(found) => Some(Declaration(i, found.0, found.1))
      case None => FindDeclFrom(s, i + 1, nameByte)
    else FindDeclFrom(s, i + 1, nameByte)
  }

  /** The scanner agrees with the pattern's leftmost-first semantics: the
      match found has the leftmost `<meta` of all matches and, within that
      tag, the last `charset` (greedy `[^>]*`). */
  lemma {:induction false} FindDeclFromIsLeftmost(s: seq<byte>, i: nat, nameByte: byte -> bool)
    requires i <= |s| && FindDeclFrom(s, i, nameByte).Some?
    ensures var r := FindDeclFrom(s, i, nameByte).value;
      && Candidate(s, r.start, r.at, nameByte)
      && (forall j, p :: i <= j < r.start ==> !Candidate(s, j, p, nameByte))
      && (forall p :: r.at < p ==> !Candidate(s, r.start, p, nameByte))
    decreases |s| - i
  {
    if MetaOpenAt(s, i) && LastDeclIn(s, i + 6, GtFrom(s, i + 5), nameByte).Some? {
      LastCandidateOfTag(s, i, nameByte);
    } else {
      NoCandidateOfTag(s, i, nameByte);
      assert FindDeclFrom(s, i, nameByte) == FindDeclFrom(s, i + 1, nameByte);
      FindDeclFromIsLeftmost(s, i + 1, nameByte);
      var r := FindDeclFrom(s, i + 1, nameByte).value;
      forall j, p | i <= j < r.start ensures !Candidate(s, j, p, nameByte) {
        if j == i { } else { assert i + 1 <= j; }
      }
    }
  }

  /** No match is found only when the pattern matches nowhere. */
  lemma {:induction false} FindDeclFromNone(s: seq<byte>, i: nat, nameByte: byte -> bool)
    requires i <= |s| && FindDeclFrom(s, i, nameByte).None?
    ensures forall j, p :: i <= j ==> !Candidate(s, j, p, nameByte)
    decreases |s| - i
  {
    if i < |s| {
      NoneStep(s, i, nameByte);
      FindDeclFromNone(s, i + 1, nameByte);
      NoCandidateFrom(s, i, nameByte);
    }
  }

  lemma NoneStep(s: seq<byte>, i: nat, nameByte: byte -> bool)
    requires i < |s| && FindDeclFrom(s, i, nameByte).None?
    ensures FindDeclFrom(s, i + 1, nameByte).None?
    ensures forall p :: !Candidate(s, i, p, nameByte)
  {
    NoCandidateOfTag(s, i, nameByte);
  }

  lemma NoCandidateFrom(s: seq<byte>, i: nat, nameByte: byte -> bool)
    requires forall p :: !Candidate(s, i, p, nameByte)
    requires forall j, p :: i + 1 <= j ==> !Candidate(s, j, p, nameByte)
    ensures forall j, p :: i <= j ==> !Candidate(s, j, p, nameByte)
  {
    forall j, p | i <= j ensures !Candidate(s, j, p, nameByte) {
      if j == i { } else { assert i + 1 <= j; }
    }
  }

  lemma LastCandidateOfTag(s: seq<byte>, i: nat, nameByte: byte -> bool)
    requires MetaOpenAt(s, i) && LastDeclIn(s, i + 6, GtFrom(s, i + 5), nameByte).Some?
    ensures Candidate(s, i, LastDeclIn(s, i + 6, GtFrom(s, i + 5), nameByte).value.0, nameByte)
    ensures forall p :: LastDeclIn(s, i + 6, GtFrom(s, i + 5), nameByte).value.0 < p ==> !Candidate(s, i, p, nameByte)
  {
    CandidatesInTag(s, i, nameByte);
  }

  lemma NoCandidateOfTag(s: seq<byte>, i: nat, nameByte: byte -> bool)
    requires i <= |s|
    requires !MetaOpenAt(s, i) || LastDeclIn(s, i + 6, GtFrom(s, i + 5), nameByte).None?
    ensures forall p :: !Candidate(s, i, p, nameByte)
  {
    if MetaOpenAt(s, i) {
      CandidatesInTag(s, i, nameByte);
    }
  }

  /** Inside one `<meta` tag the candidates are exactly the declarations
      between the opening whitespace and the tag's first '>'. */
  lemma CandidatesInTag(s: seq<byte>, i: nat, nameByte: byte -> bool)
    requires MetaOpenAt(s, i)
    ensures i + 6 <= GtFrom(s, i + 5)
    ensures forall p: nat :: Candidate(s, i, p, nameByte) <==>
      i + 6 <= p < GtFrom(s, i + 5) && DeclAt(s, p, nameByte).Some?
  {
    assert s[i + 5] != 62;
    GtFromIsFirst(s, i + 5);
  }

  /** The part of the input that is searched. */
  function Window(b: seq<byte>): (w: seq<byte>)
    ensures |w| <= SearchLimit && |w| <= |b| && w == b[..|w|]
    ensures |b| <= SearchLimit ==> w == b
  {
    b[..Min(|b|, SearchLimit)]
  }

  /** `metaCharsetRE.FindSubmatch(b[:min(len(b), 4096)])`. */
  function Sniff(b: seq<byte>, nameByte: byte -> bool): (r: Option<Declaration>)
    ensures r.Some? ==> r.value.decl.end <= SearchLimit && r.value.decl.end <= |b|
  {
    FindDeclFrom(Window(b), 0, nameByte)
  }

  /** The declared charset name, lower-cased. */
  function CharsetName(b: seq<byte>, nameByte: byte -> bool): (r: Option<string>)
    ensures r.Some? ==> r.value != [] && |r.value| <= SearchLimit
  {
    match Sniff(b, nameByte)
    case None => None
    case Some(d) => Some(LowerAscii(Window(b)[d.decl.name..d.decl.end]))
  }

  predicate IsUtf8Name(name: string)
  {
    name == "utf-8" || name == "utf8"
  }

  /** `getEncoding`: the MIME index first, the IANA index when MIME does not
      know the name. */
  function GetEncoding(reg: Registry, name: string): (r: Lookup)
    ensures r == NotRegistered <==> reg.mime(name) == NotRegistered && reg.iana(name) == NotRegistered
    ensures reg.mime(name) != NotRegistered ==> r == reg.mime(name)
    ensures reg.mime(name) == NotRegistered ==> r == reg.iana(name)
  {
    if reg.mime(name) != NotRegistered then reg.mime(name) else reg.iana(name)
  }

  /** `decodeToUTF8` with both corrections (see DecodeToUtf8AsWritten): never
      fails; the input comes back unchanged unless a declared, non-UTF-8,
      supported encoding transcodes the whole buffer. */
  function DecodeToUtf8(b: seq<byte>, reg: Registry): (r: seq<byte>)
    ensures CharsetName(b, IsNameByte).None? ==> r == b
    ensures CharsetName(b, IsNameByte).Some? && IsUtf8Name(CharsetName(b, IsNameByte).value) ==> r == b
    ensures CharsetName(b, IsNameByte).Some? && !GetEncoding(reg, CharsetName(b, IsNameByte).value).Supported? ==> r == b
    ensures r != b ==>
      && CharsetName(b, IsNameByte).Some?
      && !IsUtf8Name(CharsetName(b, IsNameByte).value)
      && GetEncoding(reg, CharsetName(b, IsNameByte).value).Supported?
      && reg.transcode(GetEncoding(reg, CharsetName(b, IsNameByte).value).encoding, b) == Some(r)
    ensures
      && CharsetName(b, IsNameByte).Some?
      && !IsUtf8Name(CharsetName(b, IsNameByte).value)
      && GetEncoding(reg, CharsetName(b, IsNameByte).value).Supported?
      && reg.transcode(GetEncoding(reg, CharsetName(b, IsNameByte).value).encoding, b).Some?
      ==> r == reg.transcode(GetEncoding(reg, CharsetName(b, IsNameByte).value).encoding, b).value
  {
    match CharsetName(b, IsNameByte)
    case None => b
    case Some(name) =>
      if IsUtf8Name(name) then b
      else
        match GetEncoding(reg, name)
        case Supported(enc) =>
          (match reg.transcode(enc, b)
           case Some(text) => text
           case None => b)
        case _ => b
  }

  /** The outcome of the code as written: a nil encoding makes the call to
      its decoder panic. */
  datatype Decoded = Decoded(text: seq<byte>) | Panicked

  /** `decodeToUTF8` exactly as written: the capture class without '_', and
      a nil encoding (registered but unsupported name) used as if it were one. */
  function DecodeToUtf8AsWritten(b: seq<byte>, reg: Registry): (r: Decoded)
    ensures r.Panicked? <==>
      && CharsetName(b, IsNameByteAsWritten).Some?
      && !IsUtf8Name(CharsetName(b, IsNameByteAsWritten).value)
      && GetEncoding(reg, CharsetName(b, IsNameByteAsWritten).value) == Unsupported
    ensures r.Decoded? && r.text != b ==>
      && CharsetName(b, IsNameByteAsWritten).Some?
      && GetEncoding(reg, CharsetName(b, IsNameByteAsWritten).value).Supported?
      && reg.transcode(GetEncoding(reg, CharsetName(b, IsNameByteAsWritten).value).encoding, b) == Some(r.text)
    ensures
      && CharsetName(b, IsNameByteAsWritten).Some?
      && !IsUtf8Name(CharsetName(b, IsNameByteAsWritten).value)
      && GetEncoding(reg, CharsetName(b, IsNameByteAsWritten).value).Supported?
      && reg.transcode(GetEncoding(reg, CharsetName(b, IsNameByteAsWritten).value).encoding, b).Some?
      ==> r == Decoded(reg.transcode(GetEncoding(reg, CharsetName(b, IsNameByteAsWritten).value).encoding, b).value)
    ensures CharsetName(b, IsNameByteAsWritten).None? ==> r == Decoded(b)
    ensures CharsetName(b, IsNameByteAsWritten).Some? && IsUtf8Name(CharsetName(b, IsNameByteAsWritten).value) ==> r == Decoded(b)
  {
    match CharsetName(b, IsNameByteAsWritten)
    case None => Decoded(b)
    case Some(name) =>
      if IsUtf8Name(name) then Decoded(b)
      else
        match GetEncoding(reg, name)
        case NotRegistered => Decoded(b)
        case Unsupported => Panicked
        case Supported(enc) =>
          match reg.transcode(enc, b)
          case Some(text) => Decoded(text)
          case None => Decoded(b)
  }

  /** Bytes after the first 4096 never change which declaration is found. */
  lemma {:induction false} SniffSeesOnlyWindow(p: seq<byte>, q: seq<byte>, nameByte: byte -> bool)
    requires |p| >= SearchLimit
    ensures Sniff(p + q, nameByte) == Sniff(p, nameByte)
  {
    assert Window(p + q) == Window(p);
  }

  /** A page whose first 4096 bytes declare nothing comes back unchanged,
      whatever follows them. */
  lemma {:induction false} LateDeclarationIgnored(p: seq<byte>, q: seq<byte>, reg: Registry)
    requires |p| == SearchLimit && Sniff(p, IsNameByte).None?
    ensures DecodeToUtf8(p + q, reg) == p + q
  {
    SniffSeesOnlyWindow(p, q, IsNameByte);
  }

  /** A page that opens with `<meta` and one blank, whose first declaration
      starts right after it and whose tag holds no other `c` before its '>'. */
  lemma {:induction false} OpeningDeclarationFound(s: seq<byte>, gt: nat, d: Decl, nameByte: byte -> bool)
    requires MetaOpenAt(s, 0) && 6 <= gt < |s| && s[gt] == 62 && NoGt(s, 5, gt)
    requires DeclAt(s, 6, nameByte) == Some(d)
    requires forall p :: 7 <= p < gt ==> s[p] != 99 && s[p] != 67
    ensures FindDeclFrom(s, 0, nameByte) == Some(Declaration(0, 6, d))
  {
    GtFromIs(s, 5, gt);
    forall p | 7 <= p < gt
      ensures DeclAt(s, p, nameByte).None?
    {
      assert !FoldBytesAt(s, p, "charset");
    }
    var found := LastDeclIn(s, 6, gt, nameByte);
    assert found.Some? && found.value.0 == 6;
  }

  /** The name read from a short page is its captured bytes, lower-cased. */
  lemma CharsetNameOfShortPage(s: seq<byte>, nameByte: byte -> bool, d: Declaration)
    requires |s| <= SearchLimit && FindDeclFrom(s, 0, nameByte) == Some(d)
    ensures CharsetName(s, nameByte) == Some(LowerAscii(s[d.decl.name..d.decl.end]))
  {
  }

  /** `<meta charset=` */
  const MetaCharsetPrefix: seq<byte> := [60, 109, 101, 116, 97, 32, 99, 104, 97, 114, 115, 101, 116, 61]

  /** `<meta charset=Shift_JIS>` */
  const ShiftJisMeta: seq<byte> := MetaCharsetPrefix + [83, 104, 105, 102, 116, 95, 74, 73, 83, 62]

  /** `<meta charset=utf-7>` */
  const Utf7Meta: seq<byte> := MetaCharsetPrefix + [117, 116, 102, 45, 55, 62]

  /** A page that starts with the 14 bytes `<meta charset=` opens a tag
      with a declaration whose '=' is byte 13. */
  lemma MetaCharsetOpening(s: seq<byte>)
    requires 14 < |s| && s[..14] == MetaCharsetPrefix
    ensures MetaOpenAt(s, 0) && FoldBytesAt(s, 6, "charset") && SkipSpace(s, 13) == 13
  {
    MetaOpening(s, s[..14]);
    CharsetOpening(s, s[..14]);
  }

  lemma MetaOpening(s: seq<byte>, p: seq<byte>)
    requires 14 < |s| && p == s[..14] && p == MetaCharsetPrefix
    ensures MetaOpenAt(s, 0)
  {
    MetaWord(p);
    FoldBytesAtPrefix(p, s, 0, "<meta");
    assert s[5] == p[5];
  }

  lemma CharsetOpening(s: seq<byte>, p: seq<byte>)
    requires 14 < |s| && p == s[..14] && p == MetaCharsetPrefix
    ensures FoldBytesAt(s, 6, "charset") && SkipSpace(s, 13) == 13
  {
    CharsetWord(p);
    FoldBytesAtPrefix(p, s, 6, "charset");
    assert s[13] == p[13];
  }

  lemma MetaWord(s: seq<byte>)
    requires 6 <= |s| && s[0] == 60 && s[1] == 109 && s[2] == 101 && s[3] == 116 && s[4] == 97
    ensures FoldBytesAt(s, 0, "<meta")
  {
    assert FoldBytesAt(s, 4, "a");
    assert FoldBytesAt(s, 3, "ta");
    assert FoldBytesAt(s, 2, "eta");
    assert FoldBytesAt(s, 1, "meta");
  }

  lemma CharsetWord(s: seq<byte>)
    requires 13 <= |s| && s[6] == 99 && s[7] == 104 && s[8] == 97 && s[9] == 114
    requires s[10] == 115 && s[11] == 101 && s[12] == 116
    ensures FoldBytesAt(s, 6, "charset")
  {
    assert FoldBytesAt(s, 12, "t");
    assert FoldBytesAt(s, 11, "et");
    assert FoldBytesAt(s, 10, "set");
    assert FoldBytesAt(s, 9, "rset");
    assert FoldBytesAt(s, 8, "arset");
    assert FoldBytesAt(s, 7, "harset");
  }

  /** A case-folded match inside a prefix is a match in the whole input. */
  lemma {:induction false} FoldBytesAtPrefix(p: seq<byte>, s: seq<byte>, i: nat, lit: string)
    requires FoldBytesAt(p, i, lit) && |p| <= |s| && s[..|p|] == p
    ensures FoldBytesAt(s, i, lit)
    decreases |lit|
  {
    if lit != [] {
      assert s[i] == p[i];
      FoldBytesAtPrefix(p, s, i + 1, lit[1..]);
    }
  }

  /** The rest of an example page: an unquoted name at byte 14, no other
      `c` and no '>' before the tag's closing '>', its last byte. */
  predicate ExampleTagShape(s: seq<byte>)
  {
    && 15 < |s| <= SearchLimit
    && MetaOpenAt(s, 0) && FoldBytesAt(s, 6, "charset") && SkipSpace(s, 13) == 13 && s[13] == 61
    && NoGt(s, 5, |s| - 1) && s[|s| - 1] == 62
    && (forall p :: 7 <= p < |s| - 1 ==> s[p] != 99 && s[p] != 67)
    && SkipSpace(s, 14) == 14 && !IsQuote(s[14])
  }

  lemma ShiftJisTag(s: seq<byte>)
    requires s == ShiftJisMeta
    ensures ExampleTagShape(s)
  {
    MetaCharsetOpening(s);
    ShiftJisBody(s);
  }

  lemma ShiftJisBody(s: seq<byte>)
    requires s == ShiftJisMeta
    ensures NoGt(s, 5, 23) && (forall p :: 7 <= p < 23 ==> s[p] != 99 && s[p] != 67)
  {
  }

  lemma Utf7Tag(s: seq<byte>)
    requires s == Utf7Meta
    ensures ExampleTagShape(s)
  {
    MetaCharsetOpening(s);
    Utf7Body(s);
  }

  lemma Utf7Body(s: seq<byte>)
    requires s == Utf7Meta
    ensures NoGt(s, 5, 19) && (forall p :: 7 <= p < 19 ==> s[p] != 99 && s[p] != 67)
  {
  }

  /** On a page of that shape the declaration is the one right after
      `<meta `, and its name starts at byte 14. */
  lemma {:induction false} ExampleFound(s: seq<byte>, nameByte: byte -> bool, end: nat)
    requires ExampleTagShape(s)
    requires 14 < end < |s| && NameEnd(s, 14, nameByte) == end
    ensures CharsetName(s, nameByte) == Some(LowerAscii(s[14..end]))
  {
    assert DeclAt(s, 6, nameByte) == Some(Decl(13, 14, end));
    OpeningDeclarationFound(s, |s| - 1, Decl(13, 14, end), nameByte);
    CharsetNameOfShortPage(s, nameByte, Declaration(0, 6, Decl(13, 14, end)));
  }

  /** As written, the name stops at the '_': "Shift_JIS" is looked up as "shift". */
  lemma ShiftJisTruncatedAsWritten(s: seq<byte>)
    requires s == ShiftJisMeta
    ensures CharsetName(s, IsNameByteAsWritten) == Some("shift")
  {
    NameEndIs(s, 14, 19, IsNameByteAsWritten);
    ShiftJisTag(s);
    ExampleFound(s, IsNameByteAsWritten, 19);
    LowerShift(s);
  }

  lemma LowerShift(s: seq<byte>)
    requires s == ShiftJisMeta
    ensures LowerAscii(s[14..19]) == "shift"
  {
    var r := LowerAscii(s[14..19]);
    assert r[0] == 's' && r[1] == 'h' && r[2] == 'i' && r[3] == 'f' && r[4] == 't';
  }

  /** With '_' in the class the whole registered name is captured. */
  lemma ShiftJisNameKept(s: seq<byte>)
    requires s == ShiftJisMeta
    ensures CharsetName(s, IsNameByte) == Some("shift_jis")
  {
    assert forall k :: 14 <= k < 23 ==> IsNameByte(s[k]);
    NameEndIs(s, 14, 23, IsNameByte);
    ShiftJisTag(s);
    ExampleFound(s, IsNameByte, 23);
    LowerShiftJis(s);
  }

  lemma LowerShiftJis(s: seq<byte>)
    requires s == ShiftJisMeta
    ensures LowerAscii(s[14..23]) == "shift_jis"
  {
    var r := LowerAscii(s[14..23]);
    assert r[0] == 's' && r[1] == 'h' && r[2] == 'i' && r[3] == 'f' && r[4] == 't';
    assert r[5] == '_' && r[6] == 'j' && r[7] == 'i' && r[8] == 's';
  }

  /** Both capture classes read the name `utf-7` whole. */
  lemma Utf7Declared(s: seq<byte>, nameByte: byte -> bool)
    requires s == Utf7Meta
    requires forall b :: IsNameByteAsWritten(b) ==> nameByte(b)
    requires !nameByte(62)
    ensures CharsetName(s, nameByte) == Some("utf-7")
  {
    assert forall k :: 14 <= k < 19 ==> IsNameByteAsWritten(s[k]);
    NameEndIs(s, 14, 19, nameByte);
    Utf7Tag(s);
    ExampleFound(s, nameByte, 19);
    LowerUtf7(s);
  }

  lemma LowerUtf7(s: seq<byte>)
    requires s == Utf7Meta
    ensures LowerAscii(s[14..19]) == "utf-7"
  {
    var r := LowerAscii(s[14..19]);
    assert r[0] == 'u' && r[1] == 't' && r[2] == 'f' && r[3] == '-' && r[4] == '7';
  }

  /** As written, a page declaring a registered charset that has no
      implementation (UTF-7 is one) makes the decoder panic. */
  lemma Utf7PanicsAsWritten(s: seq<byte>, reg: Registry)
    requires s == Utf7Meta && GetEncoding(reg, "utf-7") == Unsupported
    ensures DecodeToUtf8AsWritten(s, reg) == Panicked
  {
    Utf7Declared(s, IsNameByteAsWritten);
  }

  /** Corrected, the same page is returned unchanged. */
  lemma Utf7FallsBack(s: seq<byte>, reg: Registry)
    requires s == Utf7Meta && GetEncoding(reg, "utf-7") == Unsupported
    ensures DecodeToUtf8(s, reg) == s
  {
    Utf7Declared(s, IsNameByte);
  }
}

=== FILE: common.dfy ===
/** Values shared by every part of the model: an option type, bytes and ASCII
    case folding as Go's regexp `(?i)` and strings.EqualFold apply it to the
    ASCII letters. */
module Common {

  datatype Option<+T> = None | Some(value: T)

  /** A byte of a file, as Go's `[]byte` holds it. */
  newtype byte = x: int | 0 <= x < 256

  function Min(a: int, b: int): int
  {
    if a < b then a else b
  }

  /** Lower-cases an ASCII letter and leaves every other character alone. */
  function LowerChar(c: char): (r: char)
    ensures 'A' <= c <= 'Z' ==> r as int == c as int + 32
    ensures !('A' <= c <= 'Z') ==> r == c
  {
    if 'A' <= c <= 'Z' then (c as int + 32) as char else c
  }

  function LowerByte(b: byte): byte
  {
    if 65 <= b <= 90 then b + 32 else b
  }

  /** The character a byte below 256 stands for (ASCII and Latin-1 code points). */
  function ByteChar(b: byte): char
  {
    b as int as char
  }

  /** The characters of an ASCII-lowercased byte string: `strings.ToLower` on
      a capture that can only hold ASCII. */
  function LowerAscii(bs: seq<byte>): (r: string)
    ensures |r| == |bs|
    ensures forall k :: 0 <= k < |bs| ==> r[k] == ByteChar(LowerByte(bs[k]))
  {
    if bs == [] then [] else [ByteChar(LowerByte(bs[0]))] + LowerAscii(bs[1..])
  }

  /** `lit` (written in lower case) occurs at `s[i..]`, ignoring ASCII case. */
  predicate FoldBytesAt(s: seq<byte>, i: nat, lit: string)
    decreases |lit|
  {
    i + |lit| <= |s| && (lit == [] || (ByteChar(LowerByte(s[i])) == lit[0] && FoldBytesAt(s, i + 1, lit[1..])))
  }

  /** The same test on text that has been read as runes. */
  predicate FoldCharsAt(s: string, i: nat, lit: string)
    decreases |lit|
  {
    i + |lit| <= |s| && (lit == [] || (LowerChar(s[i]) == lit[0] && FoldCharsAt(s, i + 1, lit[1..])))
  }

  predicate HasSuffix(s: string, suffix: string)
  {
    |suffix| <= |s| && s[|s| - |suffix|..] == suffix
  }

  /** ASCII-only `strings.EqualFold`: exact for the patterns ".htm" and
      ".html", whose letters have no non-ASCII case partners. */
  predicate EqualFoldAscii(a: string, b: string)
  {
    |a| == |b| && forall k :: 0 <= k < |a| ==> LowerChar(a[k]) == LowerChar(b[k])
  }
}

=== FILE: fields.dfy ===
/** Whitespace collapse of a title: `strings.Join(strings.Fields(t), " ")`.

    `strings.Fields` splits a string around each run of white space as
    `unicode.IsSpace` defines it and drops empty pieces; `strings.Join` puts
    one ' ' between the pieces. */
module Fields {

  /** `unicode.IsSpace`: the ASCII white space '\t', '\n', '\v', '\f', '\r',
      ' ', and U+0085, U+00A0, U+1680, U+2000 to U+200A, U+2028, U+2029,
      U+202F, U+205F, U+3000. */
  predicate IsSpace(c: char)
  {
    || c == '\t' || c == '\n' || c == '\U{0B}' || c == '\U{0C}' || c == '\r' || c == ' '
    || c == '\U{85}' || c == '\U{A0}' || c == '\U{1680}'
    || ('\U{2000}' <= c <= '\U{200A}')
    || c == '\U{2028}' || c == '\U{2029}' || c == '\U{202F}' || c == '\U{205F}' || c == '\U{3000}'
  }

  /** A field: a non-empty run without white space. */
  predicate IsWord(w: string)
  {
    w != [] && forall k :: 0 <= k < |w| ==> !IsSpace(w[k])
  }

  predicate AllWords(ws: seq<string>)
  {
    forall i :: 0 <= i < |ws| ==> IsWord(ws[i])
  }

  predicate AllSpace(s: string)
  {
    forall k :: 0 <= k < |s| ==> IsSpace(s[k])
  }

  /** The length of the run of non-space characters that starts `s`. */
  function WordLen(s: string): (n: nat)
    ensures n <= |s|
    ensures forall k :: 0 <= k < n ==> !IsSpace(s[k])
    ensures n < |s| ==> IsSpace(s[n])
  {
    if s == [] || IsSpace(s[0]) then 0 else 1 + WordLen(s[1..])
  }

  /** `strings.Fields`. */
  function Fields(s: string): (ws: seq<string>)
    ensures AllWords(ws)
    decreases |s|
  {
    if s == [] then []
    else if IsSpace(s[0]) then Fields(s[1..])
    else
      var n := WordLen(s);
      [s[..n]] + Fields(s[n..])
  }

  /** `strings.Join(ws, " ")`. */
  function JoinSpace(ws: seq<string>): (r: string)
  {
    if ws == [] then []
    else if |ws| == 1 then ws[0]
    else ws[0] + " " + JoinSpace(ws[1..])
  }

  /** The collapse applied to a title. */
  function CollapseSpace(s: string): (r: string)
    ensures Fields(r) == Fields(s)
  {
    FieldsOfJoin(Fields(s));
    JoinSpace(Fields(s))
  }

  /** The non-space characters of `s`, in order: the reference against
      which the fields are checked. */
  function NonSpace(s: string): (r: string)
    ensures |r| <= |s|
  {
    if s == [] then [] else (if IsSpace(s[0]) then [] else [s[0]]) + NonSpace(s[1..])
  }

  function Concat(ws: seq<string>): string
  {
    if ws == [] then [] else ws[0] + Concat(ws[1..])
  }

  /** A collapsed string: no white space at either end, and every white
      space character is a single ' ' between two non-space characters. */
  predicate Collapsed(r: string)
  {
    && (r != [] ==> !IsSpace(r[0]) && !IsSpace(r[|r| - 1]))
    && (forall k :: 0 <= k < |r| && IsSpace(r[k]) ==> r[k] == ' ')
    && (forall k :: 0 <= k < |r| - 1 && IsSpace(r[k]) ==> !IsSpace(r[k + 1]))
  }

  lemma {:induction false} NonSpaceAppend(a: string, b: string)
    ensures NonSpace(a + b) == NonSpace(a) + NonSpace(b)
    decreases |a|
  {
    if a != [] {
      var head := if IsSpace(a[0]) then [] else [a[0]];
      assert (a + b)[0] == a[0] && (a + b)[1..] == a[1..] + b;
      NonSpaceAppend(a[1..], b);
      assert NonSpace(a + b) == head + NonSpace(a[1..] + b);
      assert NonSpace(a) == head + NonSpace(a[1..]);
    } else {
      assert a + b == b;
    }
  }

  lemma {:induction false} NonSpaceOfWord(w: string)
    requires forall k :: 0 <= k < |w| ==> !IsSpace(w[k])
    ensures NonSpace(w) == w
    decreases |w|
  {
    if w != [] { NonSpaceOfWord(w[1..]); }
  }

  /** The fields keep every non-space character, in order, and nothing else. */
  lemma {:induction false} FieldsKeepOrder(s: string)
    ensures Concat(Fields(s)) == NonSpace(s)
    decreases |s|
  {
    if s != [] {
      if IsSpace(s[0]) {
        FieldsKeepOrder(s[1..]);
      } else {
        var n := WordLen(s);
        FieldsKeepOrder(s[n..]);
        assert s == s[..n] + s[n..];
        NonSpaceAppend(s[..n], s[n..]);
        NonSpaceOfWord(s[..n]);
        assert Fields(s) == [s[..n]] + Fields(s[n..]);
        assert ([s[..n]] + Fields(s[n..]))[1..] == Fields(s[n..]);
      }
    }
  }

  /** The fields are empty exactly for an all-space string. */
  lemma {:induction false} FieldsEmpty(s: string)
    ensures Fields(s) == [] <==> AllSpace(s)
    decreases |s|
  {
    if s != [] {
      FieldsEmpty(s[1..]);
      if IsSpace(s[0]) {
        assert AllSpace(s) <==> AllSpace(s[1..]) by {
          if AllSpace(s[1..]) {
            forall k | 0 <= k < |s| ensures IsSpace(s[k]) {
              if k > 0 { assert s[k] == s[1..][k - 1]; }
            }
          }
        }
      }
    }
  }

  /** A leading run of white space does not change the fields. */
  lemma {:induction false} FieldsSkipSpace(sp: string, s: string)
    requires AllSpace(sp)
    ensures Fields(sp + s) == Fields(s)
    decreases |sp|
  {
    if sp != [] {
      assert (sp + s)[0] == sp[0] && IsSpace(sp[0]) && (sp + s)[1..] == sp[1..] + s;
      assert AllSpace(sp[1..]) by {
        forall k | 0 <= k < |sp| - 1 ensures IsSpace(sp[1..][k]) { assert sp[1..][k] == sp[k + 1]; }
      }
      FieldsSkipSpace(sp[1..], s);
    } else {
      assert sp + s == s;
    }
  }

  lemma {:induction false} WordLenOfWord(w: string, rest: string)
    requires IsWord(w) && (rest != [] ==> IsSpace(rest[0]))
    ensures WordLen(w + rest) == |w|
    decreases |w|
  {
    if |w| > 1 {
      assert (w + rest)[1..] == w[1..] + rest;
      WordLenOfWord(w[1..], rest);
    } else {
      assert (w + rest)[1..] == rest;
    }
  }

  /** A word followed by the end or by white space is the first field. */
  lemma FieldsOfWord(w: string, rest: string)
    requires IsWord(w) && (rest != [] ==> IsSpace(rest[0]))
    ensures Fields(w + rest) == [w] + Fields(rest)
  {
    WordLenOfWord(w, rest);
    var s := w + rest;
    assert s[..|w|] == w && s[|w|..] == rest;
  }

  /** Round trip: splitting the join of fields gives the fields back. */
  lemma {:induction false} FieldsOfJoin(ws: seq<string>)
    requires AllWords(ws)
    ensures Fields(JoinSpace(ws)) == ws
    decreases |ws|
  {
    if |ws| == 1 {
      FieldsOfWord(ws[0], []);
      assert ws[0] + [] == ws[0];
    } else if |ws| > 1 {
      var tail := JoinSpace(ws[1..]);
      assert JoinSpace(ws) == ws[0] + (" " + tail);
      assert AllSpace(" ");
      FieldsOfWord(ws[0], " " + tail);
      FieldsSkipSpace(" ", tail);
      FieldsOfJoin(ws[1..]);
      assert [ws[0]] + ws[1..] == ws;
    }
  }

  /** Facts about the ends of a join of fields, used by JoinIsCollapsed. */
  lemma {:induction false} JoinEnds(ws: seq<string>)
    requires AllWords(ws) && ws != []
    ensures JoinSpace(ws) != []
    ensures !IsSpace(JoinSpace(ws)[0]) && !IsSpace(JoinSpace(ws)[|JoinSpace(ws)| - 1])
    decreases |ws|
  {
    if |ws| > 1 {
      JoinEnds(ws[1..]);
      var t := JoinSpace(ws[1..]);
      assert JoinSpace(ws) == ws[0] + " " + t;
      assert JoinSpace(ws)[0] == ws[0][0];
      assert JoinSpace(ws)[|JoinSpace(ws)| - 1] == t[|t| - 1];
    }
  }

  lemma {:induction false} JoinIsCollapsed(ws: seq<string>)
    requires AllWords(ws)
    ensures Collapsed(JoinSpace(ws))
    decreases |ws|
  {
    if |ws| > 1 {
      JoinIsCollapsed(ws[1..]);
      JoinEnds(ws[1..]);
      var w := ws[0];
      var t := JoinSpace(ws[1..]);
      var r := JoinSpace(ws);
      assert r == w + " " + t;
      assert IsWord(w);
      forall k | 0 <= k < |r| && IsSpace(r[k])
        ensures r[k] == ' '
        ensures k < |r| - 1 ==> !IsSpace(r[k + 1])
      {
        if k == |w| {
          assert r[k + 1] == t[0];
        } else if k > |w| {
          assert r[k] == t[k - |w| - 1];
          if k < |r| - 1 { assert r[k + 1] == t[k - |w|]; }
        }
      }
      assert r[0] == w[0];
      assert r[|r| - 1] == t[|t| - 1];
    }
  }

  /** What the collapse promises: no leading or trailing white space, and
      single ' ' separators only. */
  lemma CollapseIsCollapsed(s: string)
    ensures Collapsed(CollapseSpace(s))
  {
    JoinIsCollapsed(Fields(s));
  }

  /** The collapse keeps the fields, so their order, unchanged. */
  lemma CollapseKeepsFields(s: string)
    ensures Fields(CollapseSpace(s)) == Fields(s)
  {
    FieldsOfJoin(Fields(s));
  }

  /** Collapsing twice is collapsing once. */
  lemma CollapseIdempotent(s: string)
    ensures CollapseSpace(CollapseSpace(s)) == CollapseSpace(s)
  {
    CollapseKeepsFields(s);
  }

  /** The collapse is empty exactly for an all-space string. */
  lemma CollapseEmpty(s: string)
    ensures CollapseSpace(s) == [] <==> AllSpace(s)
  {
    FieldsEmpty(s);
    if Fields(s) != [] {
      JoinEnds(Fields(s));
    }
  }

  /** The collapse keeps every non-space character, in order. */
  lemma CollapseKeepsText(s: string)
    ensures NonSpace(CollapseSpace(s)) == NonSpace(s)
  {
    FieldsKeepOrder(s);
    FieldsKeepOrder(CollapseSpace(s));
    CollapseKeepsFields(s);
  }
}

=== FILE: index.dfy ===
/** Building the search index: `indexDocs` and `CreateDatabase`.

    The walk over the extracted pages is a sequence of entries. Each entry is
    examined on its own (`Examine`): directories, files that are not
    `.htm`/`.html`, files whose header cannot be read and pages without a
    title are skipped; a walk error or a path that cannot be made relative
    aborts the walk; any other page gives one row (title, "Guide", relative
    path). `Walk` is the specification of the walk; the store class
    `IndexStore` performs it step by step inside a transaction. The table
    has a UNIQUE index on (name, type, path) and is filled with INSERT OR
    IGNORE, so its contents are a set of rows. */
module Index {
  import opened Common
  import Paths
  import Title

  /** A row of `searchIndex(name, type, path)`. */
  datatype Row = Row(name: string, kind: string, path: string)

  /** The type every entry is given. */
  const GuideType: string := "Guide"

  /** What the directory walk reports for one path: an error, a directory,
      or a file with its first bytes (None when opening or reading it
      fails) and whether the database rejects the insert for it. */
  datatype WalkEntry =
    | WalkError(path: string)
    | Dir(path: string)
    | File(path: string, header: Option<seq<byte>>, insertFails: bool)

  datatype IndexError =
    | OpenFailed | SchemaFailed | BeginFailed | PrepareFailed
    | WalkFailed | RelFailed | InsertFailed | CommitFailed

  /** What the walk callback does with one entry. */
  datatype Step = Skip | Insert(row: Row) | Abort(error: IndexError)

  /** A file whose extension is ".htm" or ".html" in any ASCII case. */
  predicate IsPage(path: string)
    ensures IsPage(path) <==> LowerChars(Paths.Ext(path)) == ".htm" || LowerChars(Paths.Ext(path)) == ".html"
  {
    FoldIsLowered(Paths.Ext(path), ".htm");
    FoldIsLowered(Paths.Ext(path), ".html");
    EqualFoldAscii(Paths.Ext(path), ".htm") || EqualFoldAscii(Paths.Ext(path), ".html")
  }

  /** `s` with its ASCII letters lower-cased. */
  function LowerChars(s: string): (r: string)
    ensures |r| == |s|
  {
    seq(|s|, k requires 0 <= k < |s| => LowerChar(s[k]))
  }

  /** Comparing folded is comparing the lower-cased text with a pattern
      written in lower case. */
  lemma FoldIsLowered(a: string, lit: string)
    requires LowerChars(lit) == lit
    ensures EqualFoldAscii(a, lit) <==> LowerChars(a) == lit
  {
    if LowerChars(a) == lit {
      forall k | 0 <= k < |a| ensures LowerChar(a[k]) == LowerChar(lit[k]) {
        assert LowerChars(lit)[k] == LowerChar(lit[k]);
      }
    }
    if EqualFoldAscii(a, lit) {
      forall k | 0 <= k < |a| ensures LowerChars(a)[k] == lit[k] {
        assert LowerChars(lit)[k] == LowerChar(lit[k]);
      }
    }
  }

  /** The callback of `filepath.WalkDir` in `indexDocs`, for one entry. */
  function Examine(e: WalkEntry, base: string, libs: Title.Libs): (r: Step)
    ensures r.Abort? ==> r.error == WalkFailed || r.error == RelFailed
    ensures r.Insert? ==> e.File? && IsPage(e.path) && r.row.kind == GuideType && r.row.name != []
  {
    match e
    case WalkError(_) => Abort(WalkFailed)
    case Dir(_) => Skip
    case File(path, header, _) =>
      if !IsPage(path) then Skip
      else if header.None? then Skip
      else
        var title := Title.ExtractTitle(header.value, libs);
        if title == [] then Skip
        else
          match Paths.Rel(base, path, Paths.Separator)
          case None => Abort(RelFailed)
          case Some(rel) => Insert(Row(title, GuideType, Paths.ToSlash(rel, Paths.Separator)))
  }

  /** Where an entry aborts the walk: a walk error, and a page with a title
      whose path cannot be made relative to the base. */
  lemma ExamineAborts(e: WalkEntry, base: string, libs: Title.Libs)
    ensures e.WalkError? <==> Examine(e, base, libs) == Abort(WalkFailed)
    ensures Examine(e, base, libs) == Abort(RelFailed) <==>
      && e.File? && IsPage(e.path) && e.header.Some?
      && Title.ExtractTitle(e.header.value, libs) != []
      && Paths.Rel(base, e.path, Paths.Separator).None?
  {
  }

  /** Directories, files that are not pages and unreadable files are
      skipped; a row is inserted only for a page with a non-empty title,
      under its path relative to the base. */
  lemma ExamineInserts(e: WalkEntry, base: string, libs: Title.Libs)
    ensures e.Dir? || (e.File? && !IsPage(e.path)) || (e.File? && e.header.None?) ==> Examine(e, base, libs).Skip?
    ensures var s := Examine(e, base, libs);
      s.Insert? ==>
        && e.File? && IsPage(e.path) && e.header.Some?
        && s.row.name == Title.ExtractTitle(e.header.value, libs) && s.row.name != []
        && s.row.kind == GuideType
        && Paths.Rel(base, e.path, Paths.Separator) == Some(s.row.path)
    ensures e.File? && IsPage(e.path) && e.header.Some? && Title.ExtractTitle(e.header.value, libs) == [] ==>
      Examine(e, base, libs).Skip?
    ensures
      && e.File? && IsPage(e.path) && e.header.Some?
      && Title.ExtractTitle(e.header.value, libs) != []
      && Paths.Rel(base, e.path, Paths.Separator).Some?
      ==> Examine(e, base, libs) == Insert(Row(
            Title.ExtractTitle(e.header.value, libs), GuideType, Paths.Rel(base, e.path, Paths.Separator).value))
  {
    match e
    case WalkError(_) =>
    case Dir(_) =>
    case File(path, header, _) =>
      if IsPage(path) && header.Some? {
        var title := Title.ExtractTitle(header.value, libs);
        if title != [] {
          match Paths.Rel(base, path, Paths.Separator)
          case None =>
          case Some(rel) =>
            ToSlashOnHost(rel);
            assert Examine(e, base, libs) == Insert(Row(title, GuideType, rel));
        }
      }
  }

  /** A page found by walking `base` lies under it, so making its path
      relative never fails: RelFailed is reached only by an entry outside
      the base. */
  lemma ExamineUnderBase(e: WalkEntry, base: string, libs: Title.Libs)
    requires e.File? && |base| < |e.path| && e.path[..|base| + 1] == base + [Paths.Separator]
    ensures Paths.Rel(base, e.path, Paths.Separator) == Some(e.path[|base| + 1..])
    ensures Examine(e, base, libs) != Abort(RelFailed)
  {
  }

  /** The callback `indexDocs` hands to the walk. */
  function Callback(base: string, libs: Title.Libs): WalkEntry -> Step
  {
    e => Examine(e, base, libs)
  }

  /** On a host whose separator is '/', `filepath.ToSlash` changes nothing. */
  lemma ToSlashOnHost(p: string)
    ensures Paths.ToSlash(p, Paths.Separator) == p
  {
  }

  /** A file whose row the database rejects. */
  predicate Rejected(e: WalkEntry)
  {
    e.File? && e.insertFails
  }

  /** An entry that stops the walk: an aborting step, or an insert that the
      database rejects. */
  predicate Stops(e: WalkEntry, fn: WalkEntry -> Step)
  {
    var s := fn(e);
    s.Abort? || (s.Insert? && Rejected(e))
  }

  /** The rows inserted so far and the error that stopped the walk, if any. */
  datatype Walked = Walked(rows: set<Row>, failure: Option<IndexError>)

  /** One entry applied to the rows of an unfinished walk. */
  function Apply(rows: set<Row>, e: WalkEntry, fn: WalkEntry -> Step): (w: Walked)
    ensures w.failure.None? <==> !Stops(e, fn)
    ensures rows <= w.rows
  {
    match fn(e)
    case Skip => Walked(rows, None)
    case Abort(error) => Walked(rows, Some(error))
    case Insert(row) => if Rejected(e) then Walked(rows, Some(InsertFailed)) else Walked(rows + {row}, None)
  }

  /** `filepath.WalkDir` over `entries` with the callback `fn`: each entry
      in turn, until one stops it. */
  function Walk(entries: seq<WalkEntry>, fn: WalkEntry -> Step): (w: Walked)
    decreases |entries|
  {
    if entries == [] then Walked({}, None)
    else
      var w := Walk(entries[..|entries| - 1], fn);
      if w.failure.Some? then w else Apply(w.rows, entries[|entries| - 1], fn)
  }

  /** The walk over one more entry. */
  lemma WalkSnoc(init: seq<WalkEntry>, last: WalkEntry, fn: WalkEntry -> Step)
    ensures Walk(init + [last], fn) ==
      var w := Walk(init, fn);
      if w.failure.Some? then w else Apply(w.rows, last, fn)
  {
    var s := init + [last];
    assert s[..|s| - 1] == init && s[|s| - 1] == last;
  }

  /** The rows that the entries' examination asks for. */
  ghost function RequestedRows(entries: seq<WalkEntry>, fn: WalkEntry -> Step): set<Row>
  {
    set k | 0 <= k < |entries| && fn(entries[k]).Insert? :: fn(entries[k]).row
  }

  /** The walk succeeds exactly when no entry stops it. */
  lemma {:induction false} WalkSucceeds(entries: seq<WalkEntry>, fn: WalkEntry -> Step)
    ensures Walk(entries, fn).failure.None? <==>
      forall k :: 0 <= k < |entries| ==> !Stops(entries[k], fn)
    decreases |entries|
  {
    if entries != [] {
      var init := entries[..|entries| - 1];
      WalkSucceeds(init, fn);
      forall k | 0 <= k < |init| ensures init[k] == entries[k] { }
    }
  }

  /** A successful walk inserts exactly the requested rows: the table is a
      set, so repeated rows and the order of the entries do not matter. */
  lemma {:induction false} WalkRows(entries: seq<WalkEntry>, fn: WalkEntry -> Step)
    requires Walk(entries, fn).failure.None?
    ensures Walk(entries, fn).rows == RequestedRows(entries, fn)
    decreases |entries|
  {
    if entries != [] {
      var init := entries[..|entries| - 1];
      var last := entries[|entries| - 1];
      WalkRows(init, fn);
      RequestedRowsSnoc(init, last, fn);
      assert init + [last] == entries;
    }
  }

  /** Every walk, even one that fails, inserts only rows its entries ask
      for. */
  lemma {:induction false} WalkInsertsOnlyRequested(entries: seq<WalkEntry>, fn: WalkEntry -> Step)
    ensures Walk(entries, fn).rows <= RequestedRows(entries, fn)
    decreases |entries|
  {
    if entries != [] {
      var init := entries[..|entries| - 1];
      var last := entries[|entries| - 1];
      WalkInsertsOnlyRequested(init, fn);
      RequestedRowsSnoc(init, last, fn);
      assert init + [last] == entries;
    }
  }

  lemma RequestedRowsSnoc(init: seq<WalkEntry>, last: WalkEntry, fn: WalkEntry -> Step)
    ensures RequestedRows(init + [last], fn) ==
      RequestedRows(init, fn) + (if fn(last).Insert? then {fn(last).row} else {})
  {
    var s := init + [last];
    forall k | 0 <= k < |init| ensures s[k] == init[k] { }
    assert s[|init|] == last;
  }

  /** The requested rows depend only on which entries occur, not on their
      order. */
  lemma RequestedRowsPermutation(a: seq<WalkEntry>, b: seq<WalkEntry>, fn: WalkEntry -> Step)
    requires multiset(a) == multiset(b)
    ensures RequestedRows(a, fn) == RequestedRows(b, fn)
  {
    forall r | r in RequestedRows(a, fn) ensures r in RequestedRows(b, fn) {
      var k :| 0 <= k < |a| && fn(a[k]).Insert? && fn(a[k]).row == r;
      assert a[k] in multiset(b);
      var j :| 0 <= j < |b| && b[j] == a[k];
    }
    forall r | r in RequestedRows(b, fn) ensures r in RequestedRows(a, fn) {
      var k :| 0 <= k < |b| && fn(b[k]).Insert? && fn(b[k]).row == r;
      assert b[k] in multiset(a);
      var j :| 0 <= j < |a| && a[j] == b[k];
    }
  }

  /** Walking the same entries in another order gives the same outcome
      when the walk succeeds. */
  lemma WalkOrderIndependent(a: seq<WalkEntry>, b: seq<WalkEntry>, fn: WalkEntry -> Step)
    requires multiset(a) == multiset(b)
    requires Walk(a, fn).failure.None?
    ensures Walk(b, fn) == Walk(a, fn)
  {
    WalkSucceeds(a, fn);
    WalkSucceeds(b, fn);
    forall k | 0 <= k < |b| ensures !Stops(b[k], fn) {
      assert b[k] in multiset(a);
      var j :| 0 <= j < |a| && a[j] == b[k];
    }
    WalkRows(a, fn);
    WalkRows(b, fn);
    RequestedRowsPermutation(a, b, fn);
  }

  /** Once a prefix of the walk has failed, the rest of the entries change
      nothing. */
  lemma {:induction false} WalkStopsAtFailure(entries: seq<WalkEntry>, i: nat, fn: WalkEntry -> Step)
    requires i <= |entries| && Walk(entries[..i], fn).failure.Some?
    ensures Walk(entries, fn) == Walk(entries[..i], fn)
    decreases |entries| - i
  {
    if i < |entries| {
      var next := entries[..i + 1];
      assert next[..i] == entries[..i];
      WalkStopsAtFailure(entries, i + 1, fn);
    } else {
      assert entries[..i] == entries;
    }
  }

  /** An entry that is skipped (a directory, a file that is not a page, a
      file that cannot be read, a page without a title) can be left out of
      the walk without changing anything. */
  lemma {:induction false} WalkIgnoresSkipped(a: seq<WalkEntry>, e: WalkEntry, b: seq<WalkEntry>, fn: WalkEntry -> Step)
    requires fn(e).Skip?
    ensures Walk(a + [e] + b, fn) == Walk(a + b, fn)
    decreases |b|
  {
    if b == [] {
      WalkSnoc(a, e, fn);
      assert a + [e] + b == a + [e] && a + b == a;
    } else {
      var init := b[..|b| - 1];
      var last := b[|b| - 1];
      WalkIgnoresSkipped(a, e, init, fn);
      WalkSnoc(a + [e] + init, last, fn);
      WalkSnoc(a + init, last, fn);
      assert a + [e] + b == (a + [e] + init) + [last];
      assert a + b == (a + init) + [last];
    }
  }

  /** Faults the database can report, one per statement `CreateDatabase`
      and `indexDocs` run outside the walk. */
  datatype DbFaults = DbFaults(
    openFails: bool, schemaFails: bool, beginFails: bool, prepareFails: bool, commitFails: bool)

  predicate NoFaults(f: DbFaults)
  {
    !f.openFails && !f.schemaFails && !f.beginFails && !f.prepareFails && !f.commitFails
  }

  /** The error `CreateDatabase` reports, in the order its statements run. */
  function CreateDatabaseError(w: Walked, f: DbFaults): (r: Option<IndexError>)
    ensures r.None? <==> NoFaults(f) && w.failure.None?
    ensures w.failure.Some? && !f.openFails && !f.schemaFails && !f.beginFails && !f.prepareFails ==> r == w.failure
  {
    if f.openFails then Some(OpenFailed)
    else if f.schemaFails then Some(SchemaFailed)
    else if f.beginFails then Some(BeginFailed)
    else if f.prepareFails then Some(PrepareFailed)
    else if w.failure.Some? then w.failure
    else if f.commitFails then Some(CommitFailed)
    else None
  }

  /** The database file: whether it holds the table, the committed rows,
      and, while a transaction is open, the rows that transaction sees. */
  class IndexStore {
    var hasTable: bool
    var committed: set<Row>
    var pending: set<Row>
    var inTx: bool

    ghost predicate Valid()
      reads this
    {
      && (!hasTable ==> committed == {})
      && (inTx ==> hasTable && committed <= pending)
      && (!inTx ==> pending == committed)
    }

    /** A database file left by an earlier run, holding `stale`. */
    constructor(stale: set<Row>)
      ensures Valid() && hasTable && committed == stale && !inTx
    {
      hasTable := true;
      committed := stale;
      pending := stale;
      inTx := false;
    }

    /** `os.Remove(DatabasePath())`. */
    method Remove()
      requires Valid() && !inTx
      modifies this
      ensures Valid() && !inTx && !hasTable && committed == {}
    {
      hasTable := false;
      committed := {};
      pending := {};
    }

    /** `db.Exec(dbSchema)`: creating the table fails when it exists. */
    method CreateSchema(fails: bool) returns (failed: bool)
      requires Valid() && !inTx
      modifies this
      ensures Valid() && !inTx && committed == old(committed)
      ensures failed <==> fails || old(hasTable)
      ensures hasTable == (old(hasTable) || !fails)
    {
      failed := fails || hasTable;
      if !fails {
        hasTable := true;
      }
    }

    /** `db.Begin()`. */
    method Begin(fails: bool) returns (failed: bool)
      requires Valid() && !inTx && hasTable
      modifies this
      ensures Valid() && hasTable && committed == old(committed) && pending == old(pending)
      ensures failed == fails && inTx == !fails
    {
      failed := fails;
      if !fails {
        inTx := true;
      }
    }

    /** `stmt.Exec(title, "Guide", relPath)` for INSERT OR IGNORE: a row
        already present is ignored; a rejected statement changes nothing. */
    method InsertOrIgnore(r: Row, fails: bool) returns (failed: bool)
      requires Valid() && inTx
      modifies this
      ensures Valid() && inTx && hasTable && committed == old(committed)
      ensures failed == fails
      ensures pending == if fails then old(pending) else old(pending) + {r}
      ensures r in old(pending) ==> pending == old(pending)
    {
      failed := fails;
      if !fails {
        pending := pending + {r};
      }
    }

    /** `tx.Commit()`: the transaction ends either way; its rows are kept
        only when the commit succeeds. */
    method Commit(fails: bool) returns (failed: bool)
      requires Valid() && inTx
      modifies this
      ensures Valid() && !inTx && hasTable
      ensures failed == fails
      ensures committed == if fails then old(committed) else old(pending)
    {
      failed := fails;
      if !fails {
        committed := pending;
      }
      pending := committed;
      inTx := false;
    }

    /** The deferred `tx.Rollback()`: discards the open transaction, and does
        nothing once it has ended. */
    method Rollback()
      requires Valid()
      modifies this
      ensures Valid() && !inTx && hasTable == old(hasTable) && committed == old(committed)
    {
      pending := committed;
      inTx := false;
    }

    /** `indexDocs`: prepares the insert, then walks the entries, inserting
        one row per titled page, until the walk ends or an entry stops it. */
    method IndexDocs(entries: seq<WalkEntry>, base: string, libs: Title.Libs, prepareFails: bool)
      returns (err: Option<IndexError>)
      requires Valid() && inTx
      modifies this
      ensures Valid() && inTx && hasTable && committed == old(committed)
      ensures prepareFails ==> err == Some(PrepareFailed) && pending == old(pending)
      ensures !prepareFails ==>
        && err == Walk(entries, Callback(base, libs)).failure
        && pending == old(pending) + Walk(entries, Callback(base, libs)).rows
    {
      if prepareFails {
        return Some(PrepareFailed);
      }
      err := None;
      var i := 0;
      while i < |entries| && err.None?
        invariant 0 <= i <= |entries|
        invariant Valid() && inTx && hasTable && committed == old(committed)
        invariant err == Walk(entries[..i], Callback(base, libs)).failure
        invariant pending == old(pending) + Walk(entries[..i], Callback(base, libs)).rows
        decreases |entries| - i
      {
        var e := entries[i];
        assert entries[..i + 1][..i] == entries[..i] && entries[..i + 1][i] == e;
        match Examine(e, base, libs) {
          case Skip =>
          case Abort(error) =>
            err := Some(error);
          case Insert(row) =>
            var failed := InsertOrIgnore(row, Rejected(e));
            if failed {
              err := Some(InsertFailed);
            }
        }
        i := i + 1;
      }
      if i < |entries| {
        WalkStopsAtFailure(entries, i, Callback(base, libs));
      } else {
        assert entries[..i] == entries;
      }
    }

    /** `CreateDatabase`: a fresh database whose table holds exactly the
        rows of a successful walk, or no rows at all when any step fails. */
    method CreateDatabase(entries: seq<WalkEntry>, base: string, libs: Title.Libs, faults: DbFaults)
      returns (err: Option<IndexError>)
      requires Valid() && !inTx
      modifies this
      ensures Valid() && !inTx
      ensures err == CreateDatabaseError(Walk(entries, Callback(base, libs)), faults)
      ensures err.None? <==> NoFaults(faults) && Walk(entries, Callback(base, libs)).failure.None?
      ensures err.None? ==> committed == Walk(entries, Callback(base, libs)).rows
      ensures err.Some? ==> committed == {}
    {
      Remove();
      if faults.openFails {
        return Some(OpenFailed);
      }
      var failed := CreateSchema(faults.schemaFails);
      if failed {
        return Some(SchemaFailed);
      }
      failed := Begin(faults.beginFails);
      if failed {
        return Some(BeginFailed);
      }
      err := IndexDocs(entries, base, libs, faults.prepareFails);
      if err.Some? {
        Rollback();
        return err;
      }
      failed := Commit(faults.commitFails);
      Rollback();
      if failed {
        return Some(CommitFailed);
      }
    }
  }
}

=== FILE: paths.dfy ===
/** The few `path/filepath` operations the tool relies on, on a Unix host
    (separator '/'). Lexical cleaning of `.`, `..` and repeated separators
    is not part of this model. */
module Paths {
  import opened Common

  const Separator: char := '/'

  /** The path without its trailing separators. */
  function TrimTrailingSeparators(p: string): (r: string)
    ensures |r| <= |p| && r == p[..|r|]
    ensures r == [] || r[|r| - 1] != Separator
    ensures forall k :: |r| <= k < |p| ==> p[k] == Separator
  {
    if p != [] && p[|p| - 1] == Separator then TrimTrailingSeparators(p[..|p| - 1]) else p
  }

  /** What follows the last separator (the whole path when there is none). */
  function LastElement(p: string): (r: string)
    ensures |r| <= |p| && r == p[|p| - |r|..]
    ensures Separator !in r
    ensures |r| < |p| ==> p[|p| - |r| - 1] == Separator
  {
    if p == [] || p[|p| - 1] == Separator then []
    else LastElement(p[..|p| - 1]) + [p[|p| - 1]]
  }

  /** `filepath.Base`: the last element of the path, trailing separators
      ignored; "." for the empty path and "/" for a path of separators only. */
  function Base(p: string): (r: string)
    ensures r != []
    ensures r == [Separator] || Separator !in r
    ensures p == [] ==> r == "."
  {
    if p == [] then "."
    else
      var e := LastElement(TrimTrailingSeparators(p));
      if e == [] then [Separator] else e
  }

  /** `filepath.Ext`: the suffix from the last '.' of the last element, or ""
      when that element has no dot. */
  function Ext(p: string): (r: string)
    ensures |r| <= |p| && r == p[|p| - |r|..]
    ensures r != [] ==> r[0] == '.'
  {
    if p == [] || p[|p| - 1] == Separator then []
    else if p[|p| - 1] == '.' then ['.']
    else
      var e := Ext(p[..|p| - 1]);
      if e == [] then [] else e + [p[|p| - 1]]
  }

  /** The path is the part before its extension followed by the extension. */
  lemma ExtSplits(p: string)
    ensures p[..|p| - |Ext(p)|] + Ext(p) == p
  {
    var n := |p| - |Ext(p)|;
    assert p[..n] + p[n..] == p;
  }

  /** The extension holds no further '.' or separator; it is empty only when
      every '.' of the path is followed by a separator. */
  lemma {:induction false} ExtShape(p: string)
    ensures var r := Ext(p);
      && (forall k :: 1 <= k < |r| ==> r[k] != '.' && r[k] != Separator)
      && (r == [] ==> forall k :: 0 <= k < |p| && p[k] == '.' ==> Separator in p[k..])
    decreases |p|
  {
    if p != [] && p[|p| - 1] != Separator && p[|p| - 1] != '.' {
      var q := p[..|p| - 1];
      ExtShape(q);
      var e := Ext(q);
      if e == [] {
        forall k | 0 <= k < |p| && p[k] == '.' ensures Separator in p[k..] {
          assert q[k] == '.';
          var j :| 0 <= j < |q[k..]| && q[k..][j] == Separator;
          assert p[k..][j] == Separator;
        }
      }
    }
  }

  /** The last element starts right after the last separator. */
  lemma {:induction false} LastElementAfter(p: string, k: nat)
    requires k < |p| && p[k] == Separator
    requires forall j :: k < j < |p| ==> p[j] != Separator
    ensures LastElement(p) == p[k + 1..]
    decreases |p|
  {
    if k < |p| - 1 {
      LastElementAfter(p[..|p| - 1], k);
      assert p[k + 1..] == p[..|p| - 1][k + 1..] + [p[|p| - 1]];
    }
  }

  /** The extension starts at the last '.' when no separator follows it. */
  lemma {:induction false} ExtAt(p: string, k: nat)
    requires k < |p| && p[k] == '.'
    requires forall j :: k < j < |p| ==> p[j] != '.' && p[j] != Separator
    ensures Ext(p) == p[k..]
    decreases |p|
  {
    if k < |p| - 1 {
      ExtAt(p[..|p| - 1], k);
      assert p[k..] == p[..|p| - 1][k..] + [p[|p| - 1]];
    }
  }

  /** `filepath.Join` of two elements, without the lexical cleaning. */
  function Join(dir: string, name: string): (r: string)
    ensures dir == [] ==> r == name
    ensures dir != [] ==> |dir| + |name| <= |r| && r[..|dir|] == dir && r[|r| - |name|..] == name
    ensures dir != [] ==> |r| <= |dir| + |name| + 1
  {
    if dir == [] then name
    else if dir[|dir| - 1] == Separator then dir + name
    else dir + [Separator] + name
  }

  /** Joining onto a directory that does not end in a separator puts exactly
      one separator between the two. */
  lemma JoinAddsSeparator(dir: string, name: string)
    requires dir != [] && dir[|dir| - 1] != Separator
    ensures Join(dir, name) == dir + [Separator] + name
  {
  }

  /** `filepath.Rel` for paths found by walking `base`: the part after
      `base` and a separator, "." for `base` itself, and an error otherwise. */
  function Rel(base: string, target: string, sep: char): (r: Option<string>)
    ensures r.Some? && r.value != "." ==> target == base + [sep] + r.value
    ensures r.None? ==> target != base && !(|base| < |target| && target[..|base| + 1] == base + [sep])
  {
    if target == base then Some(".")
    else if |base| < |target| && target[..|base| + 1] == base + [sep] then Some(target[|base| + 1..])
    else None
  }

  /** `filepath.ToSlash`: every host separator `sep` becomes '/'. */
  function ToSlash(p: string, sep: char): (r: string)
    ensures |r| == |p|
    ensures forall k :: 0 <= k < |p| ==> r[k] == (if p[k] == sep then '/' else p[k])
  {
    if p == [] then [] else [if p[0] == sep then '/' else p[0]] + ToSlash(p[1..], sep)
  }
}

=== FILE: title.dfy ===
/** Title extraction: `extractTitle` and the pattern
    `(?i)<title[^>]*>([^<]+)</title>`.

    Only the first 64 KiB of a page are read; they are decoded to UTF-8, the
    leftmost match of the pattern is taken, its capture is HTML-unescaped and
    its white space collapsed. The pattern is modelled by a scanner over the
    runes of the decoded text: for a given start, `[^>]*` must end at the
    first '>' after `<title`, and `[^<]+` must end at the first '<' after
    that, so each start admits at most one match. */
module Title {
  import opened Common
  import Charset
  import Fields

  /** At most this many leading bytes of a page are read. */
  const HeaderReadLimit := 64 * 1024

  /** The foreign code extractTitle relies on: the charset registries and
      transcoder, the reading of UTF-8 bytes as runes that the pattern
      matcher and `strings.Fields` perform, and `html.UnescapeString`. */
  datatype Libs = Libs(
    registry: Charset.Registry,
    runes: seq<byte> -> string,
    unescape: string -> string)

  predicate NoChar(s: string, i: nat, j: nat, c: char)
    requires i <= j <= |s|
  {
    forall k :: i <= k < j ==> s[k] != c
  }

  /** The first `c` at or after `i`, or the end of the text. */
  function IndexFrom(s: string, i: nat, c: char): (j: nat)
    requires i <= |s|
    ensures i <= j <= |s|
    ensures j < |s| ==> s[j] == c
    decreases |s| - i
  {
    if i < |s| && s[i] != c then IndexFrom(s, i + 1, c) else i
  }

  lemma {:induction false} IndexFromIsFirst(s: string, i: nat, c: char)
    requires i <= |s|
    ensures NoChar(s, i, IndexFrom(s, i, c), c)
    decreases |s| - i
  {
    if i < |s| && s[i] != c { IndexFromIsFirst(s, i + 1, c); }
  }

  lemma IndexFromIs(s: string, i: nat, j: nat, c: char)
    requires i <= j < |s| && s[j] == c && NoChar(s, i, j, c)
    ensures IndexFrom(s, i, c) == j
  {
    IndexFromIsFirst(s, i, c);
  }

  /** A match: the pattern's start, and the bounds of its capture. */
  datatype Match = Match(start: nat, first: nat, end: nat)

  /** The pattern, tried at `i`: the capture's bounds, or None. */
  function TitleAt(s: string, i: nat): (r: Option<(nat, nat)>)
    requires i <= |s|
  {
    if !FoldCharsAt(s, i, "<title") then None
    else
      var g := IndexFrom(s, i + 6, '>');
      if g == |s| then None
      else
        var h := IndexFrom(s, g + 1, '<');
        if h == g + 1 || !FoldCharsAt(s, h, "</title>") then None
        else Some((g + 1, h))
  }

  /** The pattern read literally: `<title` in any case, a run without '>',
      '>', a non-empty run without '<' (the capture `[first, end)`), and
      `</title>` in any case. */
  ghost predicate TitleMatchAt(s: string, i: nat, first: nat, end: nat)
  {
    && i + 7 <= first < end <= |s|
    && FoldCharsAt(s, i, "<title")
    && s[first - 1] == '>' && NoChar(s, i + 6, first - 1, '>')
    && NoChar(s, first, end, '<')
    && FoldCharsAt(s, end, "</title>")
  }

  lemma FoldCharsAtFirst(s: string, i: nat, lit: string)
    requires FoldCharsAt(s, i, lit) && lit != []
    ensures LowerChar(s[i]) == lit[0]
  {
  }

  /** TitleAt finds a match at `i` exactly when the pattern matches there,
      and then it finds that match. */
  lemma TitleAtIsMatch(s: string, i: nat, first: nat, end: nat)
    requires i <= |s|
    ensures TitleAt(s, i) == Some((first, end)) <==> TitleMatchAt(s, i, first, end)
  {
    if TitleAt(s, i) == Some((first, end)) {
      TitleAtSound(s, i, first, end);
    }
    if TitleMatchAt(s, i, first, end) {
      TitleAtComplete(s, i, first, end);
    }
  }

  lemma TitleAtSound(s: string, i: nat, first: nat, end: nat)
    requires i <= |s| && TitleAt(s, i) == Some((first, end))
    ensures TitleMatchAt(s, i, first, end)
  {
    IndexFromIsFirst(s, i + 6, '>');
    IndexFromIsFirst(s, first, '<');
  }

  lemma TitleAtComplete(s: string, i: nat, first: nat, end: nat)
    requires i <= |s| && TitleMatchAt(s, i, first, end)
    ensures TitleAt(s, i) == Some((first, end))
  {
    IndexFromIs(s, i + 6, first - 1, '>');
    FoldCharsAtFirst(s, end, "</title>");
    IndexFromIs(s, first, end, '<');
  }

  /** The leftmost match at or after `i`. */
  function FindTitle(s: string, i: nat): (r: Option<Match>)
    requires i <= |s|
    ensures r.Some? ==> i <= r.value.start < |s| && TitleAt(s, r.value.start) == Some((r.value.first, r.value.end))
    decreases |s| - i
  {
    if i == |s| then None
    else
      match TitleAt(s, i)
      case Some(span) => Some(Match(i, span.0, span.1))
      case None => FindTitle(s, i + 1)
  }

  /** FindTitle's result is the leftmost match at or after `i`, or none
      when the pattern matches nowhere from `i` on. */
  ghost predicate LeftmostFrom(s: string, i: nat, r: Option<Match>)
  {
    && (r.Some? ==>
      && TitleMatchAt(s, r.value.start, r.value.first, r.value.end)
      && forall j, a, b :: i <= j < r.value.start ==> !TitleMatchAt(s, j, a, b))
    && (r.None? ==> forall j, a, b :: i <= j ==> !TitleMatchAt(s, j, a, b))
  }

  /** FindTitle returns the leftmost match of the pattern, and nothing only
      when the pattern matches nowhere. */
  lemma {:induction false} FindTitleIsLeftmost(s: string, i: nat)
    requires i <= |s|
    ensures LeftmostFrom(s, i, FindTitle(s, i))
    decreases |s| - i
  {
    if i < |s| {
      FindTitleIsLeftmost(s, i + 1);
      LeftmostStep(s, i);
    } else {
      LeftmostAtEnd(s);
    }
  }

  lemma LeftmostAtEnd(s: string)
    ensures LeftmostFrom(s, |s|, FindTitle(s, |s|))
  {
    forall j, a, b | |s| <= j ensures !TitleMatchAt(s, j, a, b) { }
  }

  lemma LeftmostStep(s: string, i: nat)
    requires i < |s| && LeftmostFrom(s, i + 1, FindTitle(s, i + 1))
    ensures LeftmostFrom(s, i, FindTitle(s, i))
  {
    if TitleAt(s, i).Some? {
      FoundHere(s, i);
    } else {
      NotHere(s, i);
    }
  }

  lemma FoundHere(s: string, i: nat)
    requires i < |s| && TitleAt(s, i).Some?
    ensures LeftmostFrom(s, i, FindTitle(s, i))
  {
    var span := TitleAt(s, i).value;
    TitleAtSound(s, i, span.0, span.1);
  }

  lemma NotHere(s: string, i: nat)
    requires i < |s| && TitleAt(s, i).None?
    requires LeftmostFrom(s, i + 1, FindTitle(s, i + 1))
    ensures LeftmostFrom(s, i, FindTitle(s, i))
  {
    NoMatchAt(s, i);
    assert FindTitle(s, i) == FindTitle(s, i + 1);
    if FindTitle(s, i).Some? {
      NoMatchBetween(s, i, FindTitle(s, i).value.start);
    } else {
      NoMatchAfter(s, i);
    }
  }

  lemma NoMatchAt(s: string, i: nat)
    requires i <= |s| && TitleAt(s, i).None?
    ensures forall a, b :: !TitleMatchAt(s, i, a, b)
  {
    forall a, b ensures !TitleMatchAt(s, i, a, b) {
      TitleAtIsMatch(s, i, a, b);
    }
  }

  lemma NoMatchBetween(s: string, i: nat, hi: nat)
    requires forall a, b :: !TitleMatchAt(s, i, a, b)
    requires forall j, a, b :: i + 1 <= j < hi ==> !TitleMatchAt(s, j, a, b)
    ensures forall j, a, b :: i <= j < hi ==> !TitleMatchAt(s, j, a, b)
  {
    forall j, a, b | i <= j < hi ensures !TitleMatchAt(s, j, a, b) {
      if j == i { } else { assert i + 1 <= j; }
    }
  }

  lemma NoMatchAfter(s: string, i: nat)
    requires forall a, b :: !TitleMatchAt(s, i, a, b)
    requires forall j, a, b :: i + 1 <= j ==> !TitleMatchAt(s, j, a, b)
    ensures forall j, a, b :: i <= j ==> !TitleMatchAt(s, j, a, b)
  {
    forall j, a, b | i <= j ensures !TitleMatchAt(s, j, a, b) {
      if j == i { } else { assert i + 1 <= j; }
    }
  }

  /** The bytes that are read: `io.LimitReader(f, headerReadLimit)`. */
  function Header(file: seq<byte>): (h: seq<byte>)
    ensures |h| <= HeaderReadLimit && |h| <= |file| && h == file[..|h|]
    ensures |file| <= HeaderReadLimit ==> h == file
  {
    file[..Min(|file|, HeaderReadLimit)]
  }

  /** The decoded text the pattern is matched against. */
  function Content(file: seq<byte>, libs: Libs): (r: string)
    ensures Charset.CharsetName(Header(file), Charset.IsNameByte).None? ==> r == libs.runes(Header(file))
    ensures
      && Charset.CharsetName(Header(file), Charset.IsNameByte).Some?
      && Charset.IsUtf8Name(Charset.CharsetName(Header(file), Charset.IsNameByte).value)
      ==> r == libs.runes(Header(file))
    ensures
      var n := Charset.CharsetName(Header(file), Charset.IsNameByte);
      n.Some? && !Charset.GetEncoding(libs.registry, n.value).Supported? ==> r == libs.runes(Header(file))
    ensures
      var n := Charset.CharsetName(Header(file), Charset.IsNameByte);
      && n.Some? && !Charset.IsUtf8Name(n.value)
      && Charset.GetEncoding(libs.registry, n.value).Supported?
      && libs.registry.transcode(Charset.GetEncoding(libs.registry, n.value).encoding, Header(file)).Some?
      ==> r == libs.runes(libs.registry.transcode(Charset.GetEncoding(libs.registry, n.value).encoding, Header(file)).value)
    ensures
      var n := Charset.CharsetName(Header(file), Charset.IsNameByte);
      && n.Some? && !Charset.IsUtf8Name(n.value)
      && Charset.GetEncoding(libs.registry, n.value).Supported?
      && libs.registry.transcode(Charset.GetEncoding(libs.registry, n.value).encoding, Header(file)).None?
      ==> r == libs.runes(Header(file))
  {
    libs.runes(Charset.DecodeToUtf8(Header(file), libs.registry))
  }

  /** `extractTitle` once the file has been read: the collapsed, unescaped
      capture of the leftmost match, or "" when there is none. */
  function ExtractTitle(file: seq<byte>, libs: Libs): (r: string)
    ensures Fields.Collapsed(r)
    ensures FindTitle(Content(file, libs), 0).None? ==> r == []
    ensures FindTitle(Content(file, libs), 0).Some? ==>
      var m := FindTitle(Content(file, libs), 0).value;
      r == Fields.CollapseSpace(libs.unescape(Content(file, libs)[m.first..m.end]))
  {
    var content := Content(file, libs);
    match FindTitle(content, 0)
    case None => []
    case Some(m) =>
      var t := libs.unescape(content[m.first..m.end]);
      Fields.CollapseIsCollapsed(t);
      Fields.CollapseSpace(t)
  }

  /** Bytes past the first 64 KiB never change the title. */
  lemma HeaderOnly(p: seq<byte>, q: seq<byte>, libs: Libs)
    requires |p| >= HeaderReadLimit
    ensures ExtractTitle(p + q, libs) == ExtractTitle(p, libs)
  {
    assert Header(p + q) == Header(p);
  }

  /** A title is found only from a match of the pattern: when the decoded
      header holds no `<title…>X</title>` with X non-empty and free of '<',
      the title is "". */
  lemma NoMatchNoTitle(file: seq<byte>, libs: Libs)
    requires forall j, a, b :: !TitleMatchAt(Content(file, libs), j, a, b)
    ensures ExtractTitle(file, libs) == []
  {
    FindTitleIsLeftmost(Content(file, libs), 0);
  }

  /** When the pattern matches, the title is the collapsed, unescaped text of
      the capture of its leftmost match. */
  lemma TitleFromLeftmostMatch(file: seq<byte>, libs: Libs, i: nat, first: nat, end: nat)
    requires TitleMatchAt(Content(file, libs), i, first, end)
    requires forall j, a, b :: 0 <= j < i ==> !TitleMatchAt(Content(file, libs), j, a, b)
    ensures ExtractTitle(file, libs) == Fields.CollapseSpace(libs.unescape(Content(file, libs)[first..end]))
  {
    var s := Content(file, libs);
    FindTitleIsLeftmost(s, 0);
    var m := FindTitle(s, 0).value;
    assert m.start == i;
    TitleAtIsMatch(s, i, first, end);
  }
}
